=== FILE: README.md ===
# vico-cli core, modelled in Dafny

This project models the logic of `vico-cli`, a command-line client for the
Vicohome camera cloud. It covers these parts:

- **Authentication** (`pkg/auth/auth.go`):
  - the login call with its fixed order of failure checks;
  - cache-first authentication, in which cache trouble is never fatal;
  - the classification of API replies into success, plain API error,
    "log in again" (result codes -1024 and -1025, which also clear the
    cache) and unparsable;
  - the executor that re-authenticates once and resends once.
- **The token cache** (`pkg/cache/token_cache.go`): the cache file as a
  value, absent, unreadable, unparsable or a token with its expiry.
- **Device and event fetching** (`cmd/devices/list.go`, `cmd/devices/get.go`,
  `cmd/events/list.go`, `cmd/events/get.go`): the tolerant extraction of
  records from decoded JSON, where every field of the wrong type gets Go's
  zero value, and the envelope checks. Devices check `result`; events check
  `code`.
- **`events search`** (`cmd/events/search.go`, `cmd/events/time_utils.go`):
  - the order in which arguments are validated;
  - the time-window parser, which tries two layouts in order;
  - case-insensitive matching and the order-preserving filter.
- **Output selection** (`pkg/output/output.go`): handler choice by format
  and destination, and the ordered checks of the InfluxDB settings.

The network, the filesystem, the environment and the clock are one
immutable value, `Env.World`. It holds:

- two scripted servers, the API endpoints and the login endpoint, which
  answer in order;
- records of every request and login sent, so send and login counts are
  the growth of those records;
- the cache file and what the filesystem allows on it;
- the credentials and the current time.

Every operation is a pure function from a `World` to a result and a new
`World`. The retry executor is a method. A response body is identified with
its decoding (`Body = Option<JSON>`), and JSON numbers are integers.

The time-window parser is modelled concretely for the layout
`2006-01-02 15:04:05`, as Go's `time.Parse` reads it:

- four-digit year, two-digit month and day;
- one or more spaces;
- one- or two-digit hour, two-digit minute and second;
- an optional fraction with at most nine significant digits;
- range checks, including the length of the month.

Instants are nanoseconds since the Unix epoch. RFC 3339 parsing is a
parameter.

A cached token is still valid at the exact second it expires, because
`GetToken` uses `time.Now().After(expiresAt)` (`pkg/cache/token_cache.go`).

Two consequences of the code are proved as lemmas:

- Events built from a server reply never carry a bird name, because
  `transformRawEvent` never sets one. So a `birdName` search with a
  non-empty term finds nothing.
- `Factory("influxdb", …)` never validates the InfluxDB settings. In
  contrast, `NewInfluxDBHandler` refuses every configuration.

## Model

| member | source | states |
|---|---|---|
| Auth.ValidateResponse | pkg/auth/auth.go:213-241 | unparsable body gives (false, unmarshal error) with no cache change; needsRefresh holds exactly when `result` is numeric -1024 or -1025, and then the error is the authentication error with the reply's msg and code and the cache is cleared; otherwise nothing changes; no error exactly when the envelope parses and `result` is absent, non-numeric or 0; any other numeric code is a plain API error |
| Auth.ValidationOutcomesExclusive | pkg/auth/auth.go:221-240 | needing a refresh always comes with an authentication error; a parse error or plain API error never asks for a refresh |
| Auth.SentinelClearsCache | pkg/auth/auth.go:225-232 | a sentinel reply leaves no cache file when the cache is reachable and removable; any other reply leaves the cache as it was |
| Auth.ExtractLoginToken | pkg/auth/auth.go:154-182 | failure precedence is unmarshal, then non-zero `result`, then missing/empty `data`, then missing `data.token` object, then non-string or empty `data.token.token`, each stated as an exact condition; success exactly when the path holds a non-empty string, and the result is that string |
| Auth.LoginReplyRoundTrip | pkg/auth/auth.go:166-182 | the token a well-formed login reply carries is the token extracted |
| Auth.AuthenticateDirectly | pkg/auth/auth.go:114-183 | empty email or password fails with no request; otherwise exactly one login with the credentials and loginType 0 is sent, and transport failures or the extraction decide the result; a returned token is never empty |
| Auth.Authenticate | pkg/auth/auth.go:78-105 | never sends an API request and logs in at most once; a valid cached token is returned with the world unchanged; otherwise the result is the direct login's; a failed login leaves the cache untouched; a successful login is stored for 24 hours when the file is writable; without a cache manager nothing is saved; apart from the cache file the world is exactly the direct login's |
| Auth.AuthenticateIgnoresSaveFailure | pkg/auth/auth.go:98-104 | whether the cache file can be written never changes what authenticate returns |
| Auth.AuthenticateThenCached | pkg/auth/auth.go:86-104 | after a login, every later authenticate within 24 hours returns the same token from the cache with no login and no change to the world |
| Auth.ExecuteWithRetry | pkg/auth/auth.go:260-322 | one or two sends and at most one login, the first send being the request as given; a transport failure on the first send returns at once with no login and no cache change; a first reply that does not ask for a refresh is returned (body or its error) after one send; the refresh is `authenticateDirectly` on the cleared cache, so empty credentials send no login; a refresh whose login fails gives "failed to refresh token" wrapping that login's own error, with no resend; a successful login resends once with the new token as Authorization; on every path the returned world differs from the input only by the requests sent, the one refresh login and the cache file, which is never touched without a cache manager and after a resend holds the new token unless the resend is refused as unauthenticated again; a resend happens only after an authentication error and a successful login; whatever the resend gets is final, a transport or read failure on it being reported as happening after the refresh; a returned body always validates cleanly; after a refreshed success the new token is cached for 24 hours |
| TokenCache.SaveToken | pkg/cache/token_cache.go:66-90 | a writable file afterwards holds the token expiring `now + hours·3600`, with 24 hours for a non-positive duration; a failed write is reported and changes nothing |
| TokenCache.GetToken | pkg/cache/token_cache.go:99-127 | valid exactly when the file is an entry and now is not after its expiry; the token when valid, "" otherwise; missing, unreadable and unparsable files read as no token |
| TokenCache.ClearToken | pkg/cache/token_cache.go:134-147 | succeeds exactly when the file is absent or removable, and then no file remains; a failed removal is reported and changes nothing |
| TokenCache.SaveDefaultsTo24Hours | pkg/cache/token_cache.go:67-70 | any non-positive duration saves exactly as 24 hours does |
| TokenCache.SaveThenGet | pkg/cache/token_cache.go:66-127 | after a successful save every read up to the expiry returns the saved token, and every later read returns nothing while the entry stays on disk |
| TokenCache.ClearThenGet | pkg/cache/token_cache.go:134-147 | after a successful clear no token can be read |
| TokenCache.LastSaveWins | pkg/cache/token_cache.go:84-89 | a second save overwrites the first |
| Json.Envelope | pkg/auth/auth.go:215-218 | a body decodes into a map exactly when it is a JSON object or `null` (which gives the empty map) |
| Json.ObjectItems | cmd/devices/list.go:145-153 | the kept items are objects of the array, never more than the array holds, and all of them when every item is an object |
| Json.ObjectItemsAppend | cmd/events/list.go:153-160 | skipping non-objects keeps order: it distributes over concatenation |
| Json.ObjectItemsOfObjects | cmd/devices/list.go:146-151 | an array of objects gives back exactly those objects in order |
| Text.Lower | cmd/events/search.go:141-143 | lower-casing keeps the length, maps each character by ASCII lower-casing and leaves no upper-case letter |
| Text.LowerIdempotent | cmd/events/search.go:141-145 | lower-casing an already lower-cased string changes nothing |
| Text.ContainsIffOccurs | cmd/events/search.go:147 | the substring scan succeeds exactly when the term occurs at some position |
| Text.ParseFormatNat | cmd/events/list.go:51-52 | decimal digits written for a natural number read back as that number |
| Text.FormatIntRoundTrip | cmd/events/list.go:51-52 | `%d` of any integer, negative ones included, reads back as that integer |
| Devices.TransformFollowsFieldRule | cmd/devices/list.go:156-200 | each of the twelve device fields is the input's value when it has the field's type (string or number) and Go's zero value otherwise |
| Devices.DeviceRoundTrip | cmd/devices/list.go:156-200 | a device written as JSON transforms back to itself |
| Devices.TransformIgnoresOtherKeys | cmd/devices/list.go:156-200 | keys that are not device fields have no effect |
| Devices.TransformOfEmpty | cmd/devices/list.go:157 | an empty object gives the all-zero device |
| Devices.DevicesFromBody | cmd/devices/list.go:121-153 | unparsable body is an unmarshal error; a non-zero numeric `result` is an API error with the reply's msg and code; otherwise success; a missing `data` object or `data.list` array gives the empty list; otherwise one device per object item, in order, never more than the items |
| Devices.DeviceListRoundTrip | cmd/devices/list.go:133-153 | the devices a well-formed list reply carries are the devices returned, in order |
| Devices.ListDevices | cmd/devices/list.go:89-154 | exactly one request with the token and language "en", country "US"; transport failures are reported; a delivered body is handled as above |
| Devices.DeviceFromBody | cmd/devices/get.go:108-124 | unmarshal and non-zero `result` errors as for lists; otherwise success exactly when `data` is an object, and the device is `transformToDevice(data)`; failure otherwise is "no device data found" |
| Devices.DeviceReplyRoundTrip | cmd/devices/get.go:108-124 | a reply with `result` 0 whose `data` is a device's JSON yields exactly that device |
| Devices.GetDevice | cmd/devices/get.go:73-125 | exactly one request naming the serial number with "en"/"US"; transport failures are reported; a delivered body is handled as above |
| Devices.BoolFromInt | cmd/devices/get.go:127-132 | "Yes" exactly for positive values, "No" otherwise, including negatives |
| Devices.ChargingShownFromJson | cmd/devices/get.go:127-132 | a device is shown as charging exactly when its JSON carries a positive number under `isCharging` |
| Events.ProjectKeyshot | cmd/events/list.go:198-214 | a key shot keeps exactly those of imageUrl, message, objectCategory, subCategoryName that hold strings, with their values |
| Events.TransformRawEvent | cmd/events/list.go:165-223 | bird fields and the key-shot URL are never set; absent or non-array `keyshots` gives the empty list; when `keyshots` is an array, the key shots are the projections of its object entries, one each and in order, with non-objects dropped; each of the eight copied fields is the input's string when it holds one and "" otherwise |
| Events.TransformCopiesStringFields | cmd/events/list.go:168-192 | each of the eight copied fields is the input's string when it holds one, "" otherwise |
| Events.KeyshotRoundTrip | cmd/events/list.go:200-213 | a key shot with only kept keys projects back to itself |
| Events.KeyshotsRoundTrip | cmd/events/list.go:195-217 | the key shots of an event without extra keys, written as a JSON array, read back as themselves in order |
| Events.EventRoundTrip | cmd/events/list.go:165-223 | an event without bird data, written as JSON, transforms back to itself |
| Events.EventsFromBody | cmd/events/list.go:129-162 | unmarshal error; a non-zero numeric `code` (not `result`) gives "API returned error" with msg and code; otherwise success; a missing `data` or `data.list` gives the empty list; otherwise one event per object item in order, never more than the items; every event has no bird data |
| Events.EventListRoundTrip | cmd/events/list.go:141-162 | the events a well-formed list reply carries are the events returned, in order |
| Events.FetchEvents | cmd/events/list.go:102-163 | exactly one request with the token and the window; transport failures are reported; a delivered body is handled as above |
| Events.ListWindow | cmd/events/list.go:48-49 | the window ends now and spans exactly hours·3600 seconds, negative hours included |
| Events.ListWindowTimestamps | cmd/events/list.go:48-59 | the request's timestamps read back as numbers, the end being now and the difference hours·3600 |
| Events.ListCommand | cmd/events/list.go:41-65 | an authentication failure stops before any request; otherwise exactly one events request for the window ending now, and the outcome is exactly the fetch's: its events when it succeeds, its error when it fails |
| Events.EventFromBody | cmd/events/get.go:108-137 | unmarshal and non-zero `code` errors; a non-object `data` is "no event data found"; a string `data.traceId` makes `data` itself the event even when `data.event` exists; otherwise success exactly when `data.event` is an object, which is then the event, and failure is "no event data found" |
| Events.EventReplyRoundTrip | cmd/events/get.go:108-128 | a reply with `code` 0 whose `data` is an event's JSON yields exactly that event |
| Events.WrappedEventReplyRoundTrip | cmd/events/get.go:120-137 | a reply whose `data` has no `traceId` but wraps an event's JSON under `event` yields exactly that event |
| Events.TraceIdTakesPrecedence | cmd/events/get.go:126-137 | when `data` carries a string `traceId` and also wraps another event under `event`, the event returned is `data` itself |
| Events.GetEvent | cmd/events/get.go:75-138 | exactly one request naming the trace ID with "en"/"US"; transport failures are reported; a delivered body is handled as above |
| TimeParams.ParseStd | cmd/events/time_utils.go:12 | whatever the standard layout accepts is a real date-time: month 1-12, a day that exists in that month of that year, hour 0-23, minute and second 0-59, nanoseconds below one second |
| TimeParams.StdRoundTrip | cmd/events/search.go:115-116 | a whole-second date-time written in the standard layout (as the default flag values are) parses back to itself |
| TimeParams.ParseFirst | cmd/events/time_utils.go:22-28 | a value parses exactly when some layout accepts it, and the result is that of the first accepting layout, all earlier ones having failed |
| TimeParams.StdLayoutFirst | cmd/events/time_utils.go:11-14 | when the standard layout parses, RFC 3339 is never consulted; when it does not, RFC 3339 decides |
| TimeParams.ParseTimeParameters | cmd/events/time_utils.go:9-53 | an unparsable start is reported first, then an unparsable end, then a start strictly after the end; it succeeds exactly when both parse and start ≤ end, and then the pair is the two parsed instants; "start after end" is reported exactly when both parse and start > end |
| TimeParams.InvalidStartIgnoresEnd | cmd/events/time_utils.go:30-32 | with an unparsable start the end string makes no difference |
| TimeParams.EqualTimesAccepted | cmd/events/time_utils.go:48-52 | equal start and end are accepted |
| Search.MatchesSearch | cmd/events/search.go:140-154 | with the field lower-cased: "serialnumber" matches exactly when the lower-cased serial equals the lower-cased term; "devicename" and "birdname" match exactly when the lower-cased term occurs in the lower-cased name; any other field matches nothing |
| Search.MatchIgnoresCase | cmd/events/search.go:141-143 | the case of the field name and of the term does not matter |
| Search.LoweredQueryMatchesAlike | cmd/events/search.go:140-143 | a field name and term already lower-cased match exactly as the originals do |
| Search.SerialNeedsWholeValue | cmd/events/search.go:144-145 | a term of another length than the serial number never matches it |
| Search.NamePieceMatches | cmd/events/search.go:146-147 | every piece of a device name matches a device-name search |
| Search.BirdNameNeverMatches | cmd/events/search.go:148-149 | an event built from a reply never matches a bird-name search with a non-empty term |
| Search.Filter | cmd/events/search.go:75-80 | the kept events are exactly the events that match, never more than the input |
| Search.FilterAppend | cmd/events/search.go:75-80 | the filter keeps order: it distributes over concatenation |
| Search.FilterIdempotent | cmd/events/search.go:75-80 | filtering twice is filtering once |
| Search.SearchTerm | cmd/events/search.go:35-37 | the term is `--value` when non-empty, otherwise the first argument if any, otherwise "" |
| Search.FetchAndFilter | cmd/events/search.go:58-86 | exactly one events request for the window; it fails exactly when the fetch fails; found events are exactly the filtered fetch, in order, and never empty; "no matches" is reported exactly when the fetch succeeds and no fetched event matches |
| Search.SearchCommand | cmd/events/search.go:28-86 | an empty field, then an empty term, then a bad window are reported with the world unchanged (no login, no request); an authentication failure stops before the fetch; otherwise the fetch and filter run for the window in whole Unix seconds |
| Search.UnixSecondsMonotone | cmd/events/search.go:58-59 | whole Unix seconds of two instants keep their order |
| Search.SearchWindowOrdered | cmd/events/search.go:46-66 | for a start no later than the end (what parsing the window guarantees), the start timestamp sent reads back no larger than the end timestamp |
| Search.BirdSearchFindsNothing | cmd/events/search.go:74-86 | a bird-name search with a non-empty term never finds an event, whatever the server returns |
| Output.LoadConfigFromEnv | pkg/output/output.go:45-47 | each InfluxDB setting is its variable's value, and "" when the variable is unset |
| Output.EnvironmentReachesHandler | pkg/output/output.go:25-78 | for every environment, the factory's InfluxDB handler carries the four variables' values; the validating constructor reports the URL exactly when `INFLUX_URL` is unset or empty, and gets past every check exactly when all four are set and non-empty |
| Output.NewStdoutHandler | pkg/output/output.go:50-57 | JSON exactly for the format "json"; the table for every other format, including "" and "JSON" |
| Output.Factory | pkg/output/output.go:25-39 | succeeds exactly for "stdout" and "influxdb"; "stdout" gives the stdout handler for the format; "influxdb" gives a handler carrying the configured URL, org, bucket and token; anything else is "unsupported output destination" naming it |
| Output.NewInfluxDBHandler | pkg/output/output.go:60-78 | always fails; reports the first empty setting in the order URL, org, bucket, token; reports "handled in the main package" exactly when all four are set |
| Output.FactoryDoesNotValidate | pkg/output/output.go:29-35 | the factory accepts every InfluxDB configuration, including those the validating constructor refuses |
| Output.EmptyEnvironment | pkg/output/output.go:29-35 | with no variables set the factory still builds an all-empty handler, while the constructor reports the missing URL |
| Output.FormatOnlyForStdout | pkg/output/output.go:26-37 | the format changes nothing for destinations other than "stdout" |
| Output.DestinationIsExact | pkg/output/output.go:36-37 | destinations are matched exactly: any other string, such as "STDOUT", is unsupported |

## Left out

- HTTP: URLs, headers other than `Authorization`, the HTTP client. A
  transport failure or a failed body read is one scripted reply; an
  exhausted script behaves like a failing transport.
- Byte-level JSON: a body is identified with its decoding. Floating-point
  numbers are not modelled: JSON numbers are integers. So `%.0f` of a
  fractional code, `int(val)` truncation in `transformToDevice`, and
  `BirdConfidence` as a float are outside the model.
- The exact text of wrapped standard-library errors (network errors, JSON
  syntax errors). `ApiErrors.Message` gives the client's own text up to the
  wrapped part.
- Filesystem specifics: home-directory lookup and directory creation are
  one flag (`homeOk`). The cache path, file modes and the kinds of
  `os.Stat`/`os.Remove` errors are not modelled. Whether the file can be
  written or removed is an input.
- TokenCache.SaveToken: the expiry `now + hours·3600` is stated for every
  integer, but Go computes `time.Duration(durationHours) * time.Hour` in
  64-bit nanoseconds, which wraps for durations above 2562047 hours. The
  model does not wrap.
- Events.ListWindow: the span `hours·3600` is stated for every integer, but
  Go's `-time.Duration(hours) * time.Hour` wraps in 64-bit nanoseconds for
  |hours| above 2562047. The model does not wrap.
- TokenCache.SaveToken: a failed write is modelled as leaving the previous file
  as it was. `os.WriteFile` can leave a truncated file; that case is
  indistinguishable from `Garbage` for every reader in the model.
- The clock: `time.Now()` is the world's `now`, in whole seconds for the
  cache and the events list.
- TimeParams.ParseFirst: RFC 3339 parsing is a parameter returning an
  instant or nothing, not a concrete parser.
- TimeParams.ParseStd: the exact text of Go's parse errors is not modelled,
  only whether parsing succeeds.
- The default `--startTime`/`--endTime` values are computed from the clock
  when the program starts. They are inputs to `SearchCommand`; that they
  parse back is the round-trip lemma.
- Case folding: `strings.ToLower` is modelled on ASCII letters only.
- Rendering and CLI wiring: table and JSON printing, the "no events/devices
  found" messages, cobra flags and help output, and the `Run` bodies of
  `devices list`, `devices get` and `events get`, which only authenticate,
  call the modelled fetch and print.
- `pkg/output/influxdb/influxdb.go` (the InfluxDB client and its
  asynchronous writes) and `pkg/output/stdout/stdout.go` are not part of
  this model. The InfluxDB handler is represented by the four settings it is
  built from.
- Warnings written to standard error, such as a failed cache save.
- Test expectations that the code does not meet: an "Unidentified" default
  bird name, formatted numeric timestamps in `transformRawEvent`, and a
  case-insensitive one-argument `Factory`. The model follows the code.
- The event field list is the union of the fields that `list.go`,
  `get.go` and `search.go` use. Only those `transformRawEvent` sets are
  ever filled in.

=== FILE: auth.dfy ===
/** Authentication: the login call, the cache-first token lookup, the
    classification of API replies, and the executor that re-authenticates and
    retries once when the server says the token is no longer accepted. */
module Auth {
  import opened Wrappers
  import opened Json
  import opened ApiErrors
  import opened Env
  import TokenCache

  /** The two `result` codes that mean "log in again". */
  const ErrorAccountKicked: int := -1024
  const ErrorTokenMissing: int := -1025

  predicate IsSentinel(code: int) {
    code == ErrorAccountKicked || code == ErrorTokenMissing
  }

  /** `validateResponse`'s `(needsRefresh, err)` and the world after its
      best-effort cache clear. */
  datatype Validation = Validation(needsRefresh: bool, err: Option<Error>, world: World)

  // ---------------------------------------------------------------------------
  // Reply classification
  // ---------------------------------------------------------------------------

  /** `validateResponse`: sort a reply into success, plain API error,
      "must re-authenticate" (which also clears the cache) or parse error. */
  function ValidateResponse(body: Body, w: World): (r: Validation)
    ensures Envelope(body).None? ==> r == Validation(false, Some(Unmarshal), w)
    ensures r.needsRefresh <==> Status(body, "result").Some? && IsSentinel(Status(body, "result").value)
    ensures r.needsRefresh ==>
      r.err == Some(AuthenticationError(MsgOf(body), Status(body, "result").value)) && r.world == ClearCache(w)
    ensures !r.needsRefresh ==> r.world == w
    ensures r.err.None? <==> Envelope(body).Some? && Status(body, "result") in {None, Some(0)}
    ensures Status(body, "result").Some? && Status(body, "result").value != 0 && !r.needsRefresh ==>
      r.err == Some(ApiError(MsgOf(body), Status(body, "result").value))
  {
    match Envelope(body)
    case None => Validation(false, Some(Unmarshal), w)
    case Some(env) =>
      match Num(env, "result")
      case None => Validation(false, None, w)
      case Some(code) =>
        if code == ErrorAccountKicked || code == ErrorTokenMissing then
          Validation(true, Some(AuthenticationError(Msg(env), code)), ClearCache(w))
        else if code != 0 then Validation(false, Some(ApiError(Msg(env), code)), w)
        else Validation(false, None, w)
  }

  /** Only one of the four outcomes holds per reply, and needing a refresh
      always comes with an error. */
  lemma ValidationOutcomesExclusive(body: Body, w: World)
    ensures var r := ValidateResponse(body, w);
      (r.needsRefresh ==> r.err.Some? && r.err.value.AuthenticationError?) &&
      (r.err == Some(Unmarshal) ==> !r.needsRefresh) &&
      (r.err.Some? && r.err.value.ApiError? ==> !r.needsRefresh)
  {
  }

  /** A sentinel reply leaves no cached token behind when the cache can be
      reached and removed; any other reply leaves the cache untouched. */
  lemma SentinelClearsCache(body: Body, w: World)
    ensures ValidateResponse(body, w).needsRefresh && w.homeOk && w.disk.canRemove ==>
      ValidateResponse(body, w).world.disk.file.Missing?
    ensures !ValidateResponse(body, w).needsRefresh ==> ValidateResponse(body, w).world.disk == w.disk
  {
  }

  // ---------------------------------------------------------------------------
  // Direct login
  // ---------------------------------------------------------------------------

  /** The path of the token in a login reply. */
  const TokenPath: seq<string> := ["data", "token", "token"]

  /** The envelope extraction of `authenticateDirectly`: checks run in the
      order unmarshal, non-zero `result`, missing or empty `data`, missing
      `data.token` object, empty or non-string `data.token.token`. */
  function ExtractLoginToken(body: Body): (r: Result<string, Error>)
    ensures Envelope(body).None? ==> r == Failure(Unmarshal)
    ensures Envelope(body).Some? && Status(body, "result").Some? && Status(body, "result").value != 0 ==>
      r == Failure(ApiError(MsgOf(body), Status(body, "result").value))
    ensures r.Success? <==>
      && Envelope(body).Some? && Status(body, "result") in {None, Some(0)}
      && body.Some? && At(body.value, TokenPath).Some? && At(body.value, TokenPath).value.JStr?
      && At(body.value, TokenPath).value.str != ""
    ensures r.Success? ==> At(body.value, TokenPath) == Some(JStr(r.value))
    ensures r == Failure(MissingData) <==>
      && Envelope(body).Some? && Status(body, "result") in {None, Some(0)}
      && !(At(body.value, ["data"]).Some? && At(body.value, ["data"]).value.JObj? &&
           |At(body.value, ["data"]).value.fields| > 0)
    ensures r == Failure(MissingToken) <==>
      && Envelope(body).Some? && Status(body, "result") in {None, Some(0)}
      && At(body.value, ["data"]).Some? && At(body.value, ["data"]).value.JObj?
      && |At(body.value, ["data"]).value.fields| > 0
      && !(At(body.value, ["data", "token"]).Some? && At(body.value, ["data", "token"]).value.JObj?)
    ensures r == Failure(EmptyToken) <==>
      && Envelope(body).Some? && Status(body, "result") in {None, Some(0)}
      && At(body.value, ["data"]).Some? && At(body.value, ["data"]).value.JObj?
      && |At(body.value, ["data"]).value.fields| > 0
      && At(body.value, ["data", "token"]).Some? && At(body.value, ["data", "token"]).value.JObj?
      && !(At(body.value, TokenPath).Some? && At(body.value, TokenPath).value.JStr? &&
           At(body.value, TokenPath).value.str != "")
  {
    match Envelope(body)
    case None => Failure(Unmarshal)
    case Some(env) =>
      if Rejects(env, "result") then Failure(ApiError(Msg(env), Num(env, "result").value))
      else
        match Obj(env, "data")
        case None => Failure(MissingData)
        case Some(data) =>
          if |data| == 0 then Failure(MissingData)
          else
            match Obj(data, "token")
            case None => Failure(MissingToken)
            case Some(tokenObj) =>
              match Str(tokenObj, "token")
              case Some(s) => if s == "" then Failure(EmptyToken) else Success(s)
              case None => Failure(EmptyToken)
  }

  /** A well-formed login reply, as the server sends it. */
  function LoginReply(token: string): JSON {
    JObj(map[
      "result" := JNum(0),
      "msg" := JStr("success"),
      "data" := JObj(map["token" := JObj(map["token" := JStr(token)])])])
  }

  /** Round trip: the token the server puts in a login reply is the token
      the client extracts. */
  lemma LoginReplyRoundTrip(token: string)
    requires token != ""
    ensures ExtractLoginToken(Some(LoginReply(token))) == Success(token)
  {
    assert At(LoginReply(token), TokenPath) == Some(JStr(token));
  }

  /** `authenticateDirectly`: refuse before any request when a credential
      is empty; otherwise send exactly one login request and extract the
      token from its reply. */
  function AuthenticateDirectly(w: World): (r: Attempt<string>)
    ensures w.email == "" || w.password == "" ==> r == Attempt(Failure(MissingCredentials), w)
    ensures w.email != "" && w.password != "" ==>
      r.world == w.(logins := w.logins + [LoginBody(w.email, w.password)])
    ensures w.email != "" && w.password != "" && NextLoginReply(w).DoFailure? ==>
      r.result == Failure(RequestFailed(false))
    ensures w.email != "" && w.password != "" && NextLoginReply(w).ReadFailure? ==>
      r.result == Failure(ReadFailed(false))
    ensures w.email != "" && w.password != "" && NextLoginReply(w).Delivered? ==>
      r.result == ExtractLoginToken(NextLoginReply(w).body)
    ensures r.result.Success? ==> r.result.value != ""
  {
    if w.email == "" || w.password == "" then Attempt(Failure(MissingCredentials), w)
    else
      var x := SendLogin(w);
      match x.reply
      case DoFailure => Attempt(Failure(RequestFailed(false)), x.world)
      case ReadFailure => Attempt(Failure(ReadFailed(false)), x.world)
      case Delivered(body) => Attempt(ExtractLoginToken(body), x.world)
  }

  // ---------------------------------------------------------------------------
  // Cache-first authentication
  // ---------------------------------------------------------------------------

  /** The validity `authenticate` and the retry executor give a fresh token. */
  const CacheHours: int := 24

  /** `authenticate`: a valid cached token is returned without a login;
      otherwise log in and store the new token for 24 hours. Cache trouble
      never fails the call: without a cache manager it logs in directly, and
      a failed save only warns. */
  function Authenticate(w: World): (r: Attempt<string>)
    ensures r.world.sent == w.sent
    ensures |w.logins| <= |r.world.logins| <= |w.logins| + 1
    ensures w.homeOk && TokenCache.GetToken(w.disk.file, w.now).valid ==>
      r == Attempt(Success(w.disk.file.token), w)
    ensures !(w.homeOk && TokenCache.GetToken(w.disk.file, w.now).valid) ==>
      r.result == AuthenticateDirectly(w).result
    ensures r.result.Failure? ==> r.world.disk == w.disk
    ensures r.result.Success? && |r.world.logins| > |w.logins| && w.homeOk && w.disk.canWrite ==>
      r.world.disk.file == TokenCache.Entry(r.result.value, w.now + CacheHours * TokenCache.SecondsPerHour)
    // a login changes nothing but the login record and, at most, the cache file
    ensures !(w.homeOk && TokenCache.GetToken(w.disk.file, w.now).valid) ==>
      r.world.(disk := w.disk) == AuthenticateDirectly(w).world
    ensures !w.homeOk ==> r.world.disk == w.disk
    ensures w.homeOk && !TokenCache.GetToken(w.disk.file, w.now).valid && r.result.Success? ==>
      r.world.disk == TokenCache.SaveToken(w.disk, r.result.value, CacheHours, w.now).disk
  {
    if !w.homeOk then AuthenticateDirectly(w)
    else
      var cached := TokenCache.GetToken(w.disk.file, w.now);
      if cached.valid then Attempt(Success(cached.token), w)
      else
        var login := AuthenticateDirectly(w);
        match login.result
        case Failure(e) => Attempt(Failure(e), login.world)
        case Success(token) =>
          var saved := TokenCache.SaveToken(login.world.disk, token, CacheHours, w.now);
          Attempt(Success(token), login.world.(disk := saved.disk))
  }

  /** Whether the cache file can be written never changes what `authenticate`
      returns: a save failure is only a warning. */
  lemma AuthenticateIgnoresSaveFailure(w: World, canWrite: bool)
    ensures Authenticate(w.(disk := w.disk.(canWrite := canWrite))).result == Authenticate(w).result
  {
  }

  /** A token obtained by logging in is served from the cache, with no
      further login, by every later `authenticate` within 24 hours. */
  lemma AuthenticateThenCached(w: World, later: int)
    requires w.homeOk && w.disk.canWrite
    requires !TokenCache.GetToken(w.disk.file, w.now).valid
    requires Authenticate(w).result.Success?
    requires w.now <= later <= w.now + CacheHours * TokenCache.SecondsPerHour
    ensures var a := Authenticate(w);
      var w2 := a.world.(now := later);
      Authenticate(w2) == Attempt(Success(a.result.value), w2)
  {
    var a := Authenticate(w);
    assert |a.world.logins| == |w.logins| + 1;
    assert a.world.disk.file == TokenCache.Entry(a.result.value, w.now + CacheHours * TokenCache.SecondsPerHour);
  }

  // ---------------------------------------------------------------------------
  // Validate, refresh, retry once
  // ---------------------------------------------------------------------------

  /** `executeWithRetry`: send the request; on a reply that asks for a new
      token, clear the cache, log in once, store the token, set it as the
      `Authorization` header and send once more. Any error after the resend
      is final. Returns the result, the request as last sent, and the world. */
  method ExecuteWithRetry(req: Request, w: World) returns (result: Result<Body, Error>, sentReq: Request, w': World)
    // at most two sends and one login, the first send being the request as given
    ensures |w.sent| + 1 <= |w'.sent| <= |w.sent| + 2
    ensures w'.sent[..|w.sent|] == w.sent && w'.sent[|w.sent|] == req
    ensures |w.logins| <= |w'.logins| <= |w.logins| + 1
    // transport failure on the first send: no validation, no login, no cache change
    ensures !NextReply(w).Delivered? ==>
      && result == Failure(if NextReply(w).DoFailure? then RequestFailed(false) else ReadFailed(false))
      && w' == w.(sent := w.sent + [req])
    // a first reply that does not ask for a new token is final
    ensures NextReply(w).Delivered? && !ValidateResponse(NextReply(w).body, w).needsRefresh ==>
      && w' == w.(sent := w.sent + [req]) && sentReq == req
      && (ValidateResponse(NextReply(w).body, w).err.None? ==> result == Success(NextReply(w).body))
      && (ValidateResponse(NextReply(w).body, w).err.Some? ==>
            result == Failure(ValidateResponse(NextReply(w).body, w).err.value))
    // the refresh is `authenticateDirectly` once the cache is cleared; when
    // it fails, its error is wrapped and nothing is resent
    ensures NextReply(w).Delivered? && ValidateResponse(NextReply(w).body, w).needsRefresh ==>
      var login := AuthenticateDirectly(ClearCache(w.(sent := w.sent + [req])));
      && (login.result.Failure? <==> |w'.sent| == |w.sent| + 1)
      && (login.result.Failure? ==> result == Failure(RefreshFailed(login.result.error)) && w' == login.world)
    // a refresh whose login succeeds resends once with the new token
    ensures NextReply(w).Delivered? && ValidateResponse(NextReply(w).body, w).needsRefresh &&
            w.email != "" && w.password != "" && NextLoginReply(w).Delivered? &&
            ExtractLoginToken(NextLoginReply(w).body).Success? ==>
      && |w'.sent| == |w.sent| + 2 && |w'.logins| == |w.logins| + 1
      && sentReq == req.(authorization := ExtractLoginToken(NextLoginReply(w).body).value)
      && w'.sent[|w.sent| + 1] == sentReq
    // the resend happens only after an authentication error and a successful login
    ensures |w'.sent| == |w.sent| + 2 ==>
      && NextReply(w).Delivered? && ValidateResponse(NextReply(w).body, w).needsRefresh
      && w.email != "" && w.password != ""
      && |w'.logins| == |w.logins| + 1 && NextLoginReply(w).Delivered?
      && ExtractLoginToken(NextLoginReply(w).body) == Success(sentReq.authorization)
    // whatever the resend gets back is final
    ensures |w'.sent| == |w.sent| + 2 ==>
      var second := NextReply(w.(sent := w.sent + [req]));
      && (result.Success? <==> second.Delivered? && ValidateResponse(second.body, w).err.None?)
      && (result.Success? ==> result.value == second.body)
      && (second.Delivered? && ValidateResponse(second.body, w).err.Some? ==>
            result == Failure(ValidateResponse(second.body, w).err.value))
      && (second.DoFailure? ==> result == Failure(RequestFailed(true)))
      && (second.ReadFailure? ==> result == Failure(ReadFailed(true)))
    // after a resend, the world is the refresh login's apart from the one
    // more request and the cache file, which holds the new token unless the
    // resend is refused as unauthenticated again
    ensures |w'.sent| == |w.sent| + 2 ==>
      var login := AuthenticateDirectly(ClearCache(w.(sent := w.sent + [req])));
      var second := NextReply(w.(sent := w.sent + [req]));
      && w'.(disk := login.world.disk, sent := login.world.sent) == login.world
      && w'.sent == login.world.sent + [sentReq]
      && (w.homeOk ==>
            var saved := TokenCache.SaveToken(login.world.disk, sentReq.authorization, CacheHours, w.now).disk;
            w'.disk == (if second.Delivered? && ValidateResponse(second.body, w).needsRefresh
                        then TokenCache.ClearToken(saved).disk else saved))
    // without a cache manager the cache file is never touched
    ensures !w.homeOk ==> w'.disk == w.disk
    // a returned body always validates cleanly
    ensures result.Success? ==> ValidateResponse(result.value, w).err.None?
    // after a successful refreshed call the new token is cached for 24 hours
    ensures result.Success? && |w'.sent| == |w.sent| + 2 && w.homeOk && w.disk.canWrite ==>
      w'.disk.file == TokenCache.Entry(sentReq.authorization, w.now + CacheHours * TokenCache.SecondsPerHour)
  {
    sentReq := req;
    var first := Send(w, req);
    w' := first.world;
    if first.reply.DoFailure? {
      return Failure(RequestFailed(false)), sentReq, w';
    }
    if first.reply.ReadFailure? {
      return Failure(ReadFailed(false)), sentReq, w';
    }
    var body := first.reply.body;
    var v := ValidateResponse(body, w');
    w' := v.world;
    if v.err.Some? && !v.needsRefresh {
      return Failure(v.err.value), sentReq, w';
    }
    if v.needsRefresh {
      w' := ClearCache(w');
      var login := AuthenticateDirectly(w');
      w' := login.world;
      if login.result.Failure? {
        return Failure(RefreshFailed(login.result.error)), sentReq, w';
      }
      var token := login.result.value;
      if w'.homeOk {
        w' := w'.(disk := TokenCache.SaveToken(w'.disk, token, CacheHours, w'.now).disk);
      }
      sentReq := req.(authorization := token);
      var second := Send(w', sentReq);
      w' := second.world;
      if second.reply.DoFailure? {
        return Failure(RequestFailed(true)), sentReq, w';
      }
      if second.reply.ReadFailure? {
        return Failure(ReadFailed(true)), sentReq, w';
      }
      body := second.reply.body;
      var v2 := ValidateResponse(body, w');
      w' := v2.world;
      if v2.err.Some? {
        return Failure(v2.err.value), sentReq, w';
      }
    }
    return Success(body), sentReq, w';
  }
}

=== FILE: devices.dfy ===
/** The device commands: the tolerant JSON-to-record mapping, the list and
    single-device replies, and the "Yes"/"No" rendering of the charging flag.
    Device replies carry their status in `result`. */
module Devices {
  import opened Wrappers
  import opened Json
  import opened ApiErrors
  import opened Env

  datatype Device = Device(
    serialNumber: string,
    modelNo: string,
    deviceName: string,
    networkName: string,
    ip: string,
    batteryLevel: int,
    locationName: string,
    signalStrength: int,
    wifiChannel: int,
    isCharging: int,
    chargingMode: int,
    macAddress: string)

  /** A device written out under its JSON field names. */
  function DeviceJson(d: Device): map<string, JSON> {
    map[
      "serialNumber" := JStr(d.serialNumber),
      "modelNo" := JStr(d.modelNo),
      "deviceName" := JStr(d.deviceName),
      "networkName" := JStr(d.networkName),
      "ip" := JStr(d.ip),
      "batteryLevel" := JNum(d.batteryLevel),
      "locationName" := JStr(d.locationName),
      "signalStrength" := JNum(d.signalStrength),
      "wifiChannel" := JNum(d.wifiChannel),
      "isCharging" := JNum(d.isCharging),
      "chargingMode" := JNum(d.chargingMode),
      "macAddress" := JStr(d.macAddress)]
  }

  /** The JSON names of a device's fields. */
  const DeviceKeys: set<string> := {
    "serialNumber", "modelNo", "deviceName", "networkName", "ip", "batteryLevel",
    "locationName", "signalStrength", "wifiChannel", "isCharging", "chargingMode", "macAddress"}

  /** Go's zero value of a field's type. */
  predicate IsZero(v: JSON) {
    v == JStr("") || v == JNum(0)
  }

  /** `v` has the Go type the field's slot expects. */
  predicate SameKind(v: JSON, slot: JSON) {
    (v.JStr? && slot.JStr?) || (v.JNum? && slot.JNum?)
  }

  /** The field of `d` stored under the JSON name `k`. */
  function Slot(d: Device, k: string): JSON
    requires k in DeviceKeys
  {
    if k == "serialNumber" then JStr(d.serialNumber)
    else if k == "modelNo" then JStr(d.modelNo)
    else if k == "deviceName" then JStr(d.deviceName)
    else if k == "networkName" then JStr(d.networkName)
    else if k == "ip" then JStr(d.ip)
    else if k == "batteryLevel" then JNum(d.batteryLevel)
    else if k == "locationName" then JStr(d.locationName)
    else if k == "signalStrength" then JNum(d.signalStrength)
    else if k == "wifiChannel" then JNum(d.wifiChannel)
    else if k == "isCharging" then JNum(d.isCharging)
    else if k == "chargingMode" then JNum(d.chargingMode)
    else JStr(d.macAddress)
  }

  /** `transformToDevice`: each field is copied when the input holds a value
      of the field's type under its name, and is the zero value otherwise. */
  function TransformToDevice(m: map<string, JSON>): Device
  {
    Device(
      StrOr(m, "serialNumber"),
      StrOr(m, "modelNo"),
      StrOr(m, "deviceName"),
      StrOr(m, "networkName"),
      StrOr(m, "ip"),
      NumOr(m, "batteryLevel"),
      StrOr(m, "locationName"),
      NumOr(m, "signalStrength"),
      NumOr(m, "wifiChannel"),
      NumOr(m, "isCharging"),
      NumOr(m, "chargingMode"),
      StrOr(m, "macAddress"))
  }

  /** The rule for one field: the input's value when it has the field's
      type, Go's zero value otherwise. */
  predicate FieldRule(m: map<string, JSON>, k: string, d: Device)
    requires k in DeviceKeys
  {
    if k in m && SameKind(m[k], Slot(d, k)) then Slot(d, k) == m[k] else IsZero(Slot(d, k))
  }

  /** Every field of the device follows the copy-or-zero rule. */
  lemma TransformFollowsFieldRule(m: map<string, JSON>)
    ensures forall k :: k in DeviceKeys ==> FieldRule(m, k, TransformToDevice(m))
  {
    var d := TransformToDevice(m);
    forall k | k in DeviceKeys
      ensures FieldRule(m, k, d)
    {
      if k == "serialNumber" {
      } else if k == "modelNo" {
      } else if k == "deviceName" {
      } else if k == "networkName" {
      } else if k == "ip" {
      } else if k == "batteryLevel" {
      } else if k == "locationName" {
      } else if k == "signalStrength" {
      } else if k == "wifiChannel" {
      } else if k == "isCharging" {
      } else if k == "chargingMode" {
      } else {
      }
    }
  }

  /** Round trip: a device written as JSON reads back as itself. */
  lemma DeviceRoundTrip(d: Device)
    ensures TransformToDevice(DeviceJson(d)) == d
  {
  }

  /** Keys other than the device's own fields are ignored. */
  lemma TransformIgnoresOtherKeys(m: map<string, JSON>, k: string, v: JSON)
    requires k !in DeviceKeys
    ensures TransformToDevice(m[k := v]) == TransformToDevice(m)
  {
  }

  /** An empty object gives the all-zero device. */
  lemma TransformOfEmpty()
    ensures TransformToDevice(map[]) == Device("", "", "", "", "", 0, "", 0, 0, 0, 0, "")
  {
  }

  /** The body of a device-list request. */
  function DeviceListPayload(): JSON {
    JObj(map["language" := JStr("en"), "countryNo" := JStr("US")])
  }

  /** The body of a single-device request. */
  function DevicePayload(serialNumber: string): JSON {
    JObj(map["serialNumber" := JStr(serialNumber), "language" := JStr("en"), "countryNo" := JStr("US")])
  }

  /** The reply handling of `listDevices`: a non-zero numeric `result` is an
      API error; a missing `data` object or `data.list` array is an empty
      list; otherwise every object in the list, in order, becomes a device. */
  function DevicesFromBody(body: Body): (r: Result<seq<Device>, Error>)
    ensures Envelope(body).None? ==> r == Failure(Unmarshal)
    ensures Envelope(body).Some? && Status(body, "result").Some? && Status(body, "result").value != 0 ==>
      r == Failure(ApiError(MsgOf(body), Status(body, "result").value))
    ensures r.Failure? ==> r.error == Unmarshal || r.error.ApiError?
    ensures Envelope(body).Some? && Status(body, "result") in {None, Some(0)} ==> r.Success?
    ensures r.Success? && !(At(body.value, ["data", "list"]).Some? && At(body.value, ["data", "list"]).value.JArr?) ==>
      r.value == []
    ensures r.Success? && At(body.value, ["data", "list"]).Some? && At(body.value, ["data", "list"]).value.JArr? ==>
      var items := At(body.value, ["data", "list"]).value.items;
      && |r.value| == |ObjectItems(items)| <= |items|
      && forall i :: 0 <= i < |r.value| ==> r.value[i] == TransformToDevice(ObjectItems(items)[i])
  {
    match Envelope(body)
    case None => Failure(Unmarshal)
    case Some(env) =>
      if Rejects(env, "result") then Failure(ApiError(Msg(env), Num(env, "result").value))
      else
        match Obj(env, "data")
        case None => Success([])
        case Some(data) =>
          match Arr(data, "list")
          case None => Success([])
          case Some(items) =>
            var objs := ObjectItems(items);
            Success(seq(|objs|, i requires 0 <= i < |objs| => TransformToDevice(objs[i])))
  }

  /** A device-list reply as the server sends it. */
  function DeviceListReply(ds: seq<Device>): JSON {
    var items := seq(|ds|, i requires 0 <= i < |ds| => JObj(DeviceJson(ds[i])));
    JObj(map["result" := JNum(0), "msg" := JStr("success"), "data" := JObj(map["list" := JArr(items)])])
  }

  /** Round trip: the devices the server lists are the devices the client
      shows, in the same order. */
  lemma DeviceListRoundTrip(ds: seq<Device>)
    ensures DevicesFromBody(Some(DeviceListReply(ds))) == Success(ds)
  {
    var jsons := seq(|ds|, i requires 0 <= i < |ds| => DeviceJson(ds[i]));
    var items := seq(|jsons|, i requires 0 <= i < |jsons| => JObj(jsons[i]));
    var reply := DeviceListReply(ds);
    assert items == seq(|ds|, i requires 0 <= i < |ds| => JObj(DeviceJson(ds[i])));
    assert reply.fields["data"] == JObj(map["list" := JArr(items)]);
    assert Envelope(Some(reply)) == Some(reply.fields);
    assert !Rejects(reply.fields, "result");
    assert Obj(reply.fields, "data") == Some(map["list" := JArr(items)]);
    assert Arr(map["list" := JArr(items)], "list") == Some(items);
    ObjectItemsOfObjects(jsons);
    var devices := seq(|jsons|, i requires 0 <= i < |jsons| => TransformToDevice(jsons[i]));
    forall i | 0 <= i < |ds|
      ensures devices[i] == ds[i]
    {
      DeviceRoundTrip(ds[i]);
    }
    assert devices == ds;
  }

  /** `listDevices`: one request with the fixed language and country and the
      caller's token, then the reply handling above. */
  function ListDevices(token: string, w: World): (r: Attempt<seq<Device>>)
    ensures r.world == w.(sent := w.sent + [Request(token, DeviceListPayload())])
    ensures NextReply(w).DoFailure? ==> r.result == Failure(RequestFailed(false))
    ensures NextReply(w).ReadFailure? ==> r.result == Failure(ReadFailed(false))
    ensures NextReply(w).Delivered? ==> r.result == DevicesFromBody(NextReply(w).body)
  {
    var x := Send(w, Request(token, DeviceListPayload()));
    match x.reply
    case DoFailure => Attempt(Failure(RequestFailed(false)), x.world)
    case ReadFailure => Attempt(Failure(ReadFailed(false)), x.world)
    case Delivered(body) => Attempt(DevicesFromBody(body), x.world)
  }

  /** The reply handling of `getDevice`: a non-zero numeric `result` is an
      API error, a `data` that is not an object is "no device data found",
      and otherwise the device is read from `data`. */
  function DeviceFromBody(body: Body): (r: Result<Device, Error>)
    ensures Envelope(body).None? ==> r == Failure(Unmarshal)
    ensures Envelope(body).Some? && Status(body, "result").Some? && Status(body, "result").value != 0 ==>
      r == Failure(ApiError(MsgOf(body), Status(body, "result").value))
    ensures Envelope(body).Some? && Status(body, "result") in {None, Some(0)} ==>
      (r.Success? <==> At(body.value, ["data"]).Some? && At(body.value, ["data"]).value.JObj?)
    ensures r.Success? ==> r.value == TransformToDevice(At(body.value, ["data"]).value.fields)
    ensures Envelope(body).Some? && Status(body, "result") in {None, Some(0)} && r.Failure? ==>
      r.error == NoDeviceData
    ensures r.Failure? ==> r.error in {Unmarshal, NoDeviceData} || r.error.ApiError?
  {
    match Envelope(body)
    case None => Failure(Unmarshal)
    case Some(env) =>
      if Rejects(env, "result") then Failure(ApiError(Msg(env), Num(env, "result").value))
      else
        match Obj(env, "data")
        case None => Failure(NoDeviceData)
        case Some(data) => Success(TransformToDevice(data))
  }

  /** A single-device reply as the server sends it. */
  function DeviceReply(d: Device): JSON {
    JObj(map["result" := JNum(0), "msg" := JStr("success"), "data" := JObj(DeviceJson(d))])
  }

  /** Round trip: the device the server describes is the device the client
      shows. */
  lemma DeviceReplyRoundTrip(d: Device)
    ensures DeviceFromBody(Some(DeviceReply(d))) == Success(d)
  {
    var reply := DeviceReply(d);
    assert Envelope(Some(reply)) == Some(reply.fields);
    assert Obj(reply.fields, "data") == Some(DeviceJson(d));
    DeviceRoundTrip(d);
  }

  /** `getDevice`: one request naming the serial number, then the reply
      handling above. */
  function GetDevice(token: string, serialNumber: string, w: World): (r: Attempt<Device>)
    ensures r.world == w.(sent := w.sent + [Request(token, DevicePayload(serialNumber))])
    ensures NextReply(w).DoFailure? ==> r.result == Failure(RequestFailed(false))
    ensures NextReply(w).ReadFailure? ==> r.result == Failure(ReadFailed(false))
    ensures NextReply(w).Delivered? ==> r.result == DeviceFromBody(NextReply(w).body)
  {
    var x := Send(w, Request(token, DevicePayload(serialNumber)));
    match x.reply
    case DoFailure => Attempt(Failure(RequestFailed(false)), x.world)
    case ReadFailure => Attempt(Failure(ReadFailed(false)), x.world)
    case Delivered(body) => Attempt(DeviceFromBody(body), x.world)
  }

  /** `boolFromInt`: "Yes" for a positive value, "No" for zero and for
      negative values. */
  function BoolFromInt(v: int): (r: string)
    ensures r == "Yes" <==> v > 0
    ensures r != "Yes" ==> r == "No"
  {
    if v > 0 then "Yes" else "No"
  }

  /** A device is shown as charging exactly when its JSON carries a positive
      number under `isCharging`; an absent or non-numeric flag reads "No". */
  lemma ChargingShownFromJson(m: map<string, JSON>)
    ensures BoolFromInt(TransformToDevice(m).isCharging) == "Yes" <==>
      "isCharging" in m && m["isCharging"].JNum? && m["isCharging"].n > 0
  {
  }
}

=== FILE: errors.dfy ===
/** The errors the authentication core and the device/event fetchers return,
    one constructor per distinct `fmt.Errorf` of the source, and the text each
    one prints. Wrapped Go errors whose text comes from the standard library
    (network and JSON syntax errors) are represented by their kind alone. */
module ApiErrors {
  import Text

  datatype Error =
    | MissingCredentials                         // VICOHOME_EMAIL / VICOHOME_PASSWORD unset
    | RequestFailed(afterRefresh: bool)          // the HTTP client reported an error
    | ReadFailed(afterRefresh: bool)             // reading the response body failed
    | Unmarshal                                  // the body is not a JSON object (or null)
    | ApiError(msg: string, code: int)           // non-zero `result`
    | ApiReturnedError(msg: string, code: int)   // non-zero `code` (event endpoints)
    | AuthenticationError(msg: string, code: int)  // a sentinel `result`
    | MissingData                                // login reply without a usable `data`
    | MissingToken                               // login reply without `data.token`
    | EmptyToken                                 // login reply with an empty `data.token.token`
    | RefreshFailed(cause: Error)                // re-authentication failed during a retry
    | NoDeviceData                               // device reply whose `data` is not an object
    | NoEventData                                // event reply with no usable event object

  /** ` (code: <c>)` as `%.0f` prints a whole-number code. */
  function CodeSuffix(code: int): string {
    " (code: " + Text.FormatInt(code) + ")"
  }

  /** The text `err.Error()` returns. */
  function Message(e: Error): string {
    match e
    case MissingCredentials =>
      "Error: VICOHOME_EMAIL and VICOHOME_PASSWORD environment variables are required"
    case RequestFailed(after) =>
      if after then "error making request after token refresh" else "error making request"
    case ReadFailed(after) =>
      if after then "error reading response body after token refresh" else "error reading response body"
    case Unmarshal => "error unmarshaling response"
    case ApiError(msg, code) => "API error: " + msg + CodeSuffix(code)
    case ApiReturnedError(msg, code) => "API returned error: " + msg + CodeSuffix(code)
    case AuthenticationError(msg, code) => "authentication error: " + msg + CodeSuffix(code)
    case MissingData => "login failed: missing data in response"
    case MissingToken => "login failed: missing token in response"
    case EmptyToken => "login failed: empty token in response"
    case RefreshFailed(cause) => "failed to refresh token: " + Message(cause)
    case NoDeviceData => "no device data found"
    case NoEventData => "no event data found"
  }
}

=== FILE: events.dfy ===
/** The event commands: the tolerant mapping of a raw event object, the
    event-list and single-event replies (status in `code`, not `result`),
    and the time window the list command asks for. */
module Events {
  import opened Wrappers
  import opened Json
  import opened ApiErrors
  import opened Env
  import Text
  import Auth

  /** A key shot keeps only some string fields of the server's object. */
  type Keyshot = map<string, string>

  /** An event. It holds every field the event commands read; the bird
      fields and the key-shot URL are never filled in from a reply. */
  datatype Event = Event(
    traceId: string,
    timestamp: string,
    deviceName: string,
    serialNumber: string,
    adminName: string,
    period: string,
    birdName: string,
    birdLatin: string,
    birdConfidence: int,
    keyShotUrl: string,
    imageUrl: string,
    videoUrl: string,
    keyshots: seq<Keyshot>)

  /** The string fields copied from a raw event. */
  const EventKeys: set<string> := {
    "traceId", "timestamp", "deviceName", "serialNumber", "adminName", "period", "imageUrl", "videoUrl"}

  /** The fields a key shot keeps. */
  const KeyshotKeys: set<string> := {"imageUrl", "message", "objectCategory", "subCategoryName"}

  /** The string field of `e` stored under the JSON name `k`. */
  function Slot(e: Event, k: string): string
    requires k in EventKeys
  {
    if k == "traceId" then e.traceId
    else if k == "timestamp" then e.timestamp
    else if k == "deviceName" then e.deviceName
    else if k == "serialNumber" then e.serialNumber
    else if k == "adminName" then e.adminName
    else if k == "period" then e.period
    else if k == "imageUrl" then e.imageUrl
    else e.videoUrl
  }

  /** The projection of one key-shot object onto its string-valued kept
      fields. */
  function ProjectKeyshot(k: map<string, JSON>): (r: Keyshot)
    ensures r.Keys <= KeyshotKeys
    ensures forall key :: key in r ==> key in k && k[key] == JStr(r[key])
    ensures forall key :: key in KeyshotKeys && key in k && k[key].JStr? ==> key in r
  {
    map key | key in KeyshotKeys && key in k && k[key].JStr? :: k[key].str
  }

  /** The key shots of a raw event: the object entries of `keyshots`,
      projected, in order; empty when `keyshots` is absent or not an array. */
  function Keyshots(m: map<string, JSON>): seq<Keyshot> {
    match Arr(m, "keyshots")
    case Some(ks) =>
      var objs := ObjectItems(ks);
      seq(|objs|, i requires 0 <= i < |objs| => ProjectKeyshot(objs[i]))
    case None => []
  }

  /** `transformRawEvent`: the eight string fields are copied when they hold
      strings and are "" otherwise; the key shots are projected; nothing
      else is set. */
  function TransformRawEvent(m: map<string, JSON>): (e: Event)
    ensures e.birdName == "" && e.birdLatin == "" && e.birdConfidence == 0 && e.keyShotUrl == ""
    ensures Arr(m, "keyshots").None? ==> e.keyshots == []
    ensures Arr(m, "keyshots").Some? ==> |e.keyshots| <= |Arr(m, "keyshots").value|
    ensures Arr(m, "keyshots").Some? ==>
      var objs := ObjectItems(Arr(m, "keyshots").value);
      && |e.keyshots| == |objs|
      && forall i :: 0 <= i < |objs| ==> e.keyshots[i] == ProjectKeyshot(objs[i])
    ensures forall i :: 0 <= i < |e.keyshots| ==> e.keyshots[i].Keys <= KeyshotKeys
    ensures e.traceId == (if "traceId" in m && m["traceId"].JStr? then m["traceId"].str else "")
    ensures e.timestamp == (if "timestamp" in m && m["timestamp"].JStr? then m["timestamp"].str else "")
    ensures e.deviceName == (if "deviceName" in m && m["deviceName"].JStr? then m["deviceName"].str else "")
    ensures e.serialNumber == (if "serialNumber" in m && m["serialNumber"].JStr? then m["serialNumber"].str else "")
    ensures e.adminName == (if "adminName" in m && m["adminName"].JStr? then m["adminName"].str else "")
    ensures e.period == (if "period" in m && m["period"].JStr? then m["period"].str else "")
    ensures e.imageUrl == (if "imageUrl" in m && m["imageUrl"].JStr? then m["imageUrl"].str else "")
    ensures e.videoUrl == (if "videoUrl" in m && m["videoUrl"].JStr? then m["videoUrl"].str else "")
  {
    Event(
      StrOr(m, "traceId"),
      StrOr(m, "timestamp"),
      StrOr(m, "deviceName"),
      StrOr(m, "serialNumber"),
      StrOr(m, "adminName"),
      StrOr(m, "period"),
      "", "", 0, "",
      StrOr(m, "imageUrl"),
      StrOr(m, "videoUrl"),
      Keyshots(m))
  }

  /** Every copied field is the input's string when there is one, "" when
      the field is absent or holds another type. */
  lemma TransformCopiesStringFields(m: map<string, JSON>)
    ensures forall k :: k in EventKeys ==>
      Slot(TransformRawEvent(m), k) == (if k in m && m[k].JStr? then m[k].str else "")
  {
    var e := TransformRawEvent(m);
    forall k | k in EventKeys
      ensures Slot(e, k) == (if k in m && m[k].JStr? then m[k].str else "")
    {
      if k == "traceId" {
      } else if k == "timestamp" {
      } else if k == "deviceName" {
      } else if k == "serialNumber" {
      } else if k == "adminName" {
      } else if k == "period" {
      } else if k == "imageUrl" {
      } else {
      }
    }
  }

  /** A key shot written as JSON. */
  function KeyshotJson(k: Keyshot): map<string, JSON> {
    map key | key in k :: JStr(k[key])
  }

  /** The events `transformRawEvent` can produce: no bird data, and key
      shots that hold only the kept fields. */
  predicate FromServer(e: Event) {
    && e.birdName == "" && e.birdLatin == "" && e.birdConfidence == 0 && e.keyShotUrl == ""
    && forall i :: 0 <= i < |e.keyshots| ==> e.keyshots[i].Keys <= KeyshotKeys
  }

  /** An event written out under its JSON field names. */
  function EventJson(e: Event): map<string, JSON> {
    var shots := seq(|e.keyshots|, i requires 0 <= i < |e.keyshots| => JObj(KeyshotJson(e.keyshots[i])));
    map[
      "traceId" := JStr(e.traceId),
      "timestamp" := JStr(e.timestamp),
      "deviceName" := JStr(e.deviceName),
      "serialNumber" := JStr(e.serialNumber),
      "adminName" := JStr(e.adminName),
      "period" := JStr(e.period),
      "imageUrl" := JStr(e.imageUrl),
      "videoUrl" := JStr(e.videoUrl),
      "keyshots" := JArr(shots)]
  }

  lemma KeyshotRoundTrip(k: Keyshot)
    requires k.Keys <= KeyshotKeys
    ensures ProjectKeyshot(KeyshotJson(k)) == k
  {
  }

  /** The key shots of an event, written as JSON, read back as themselves. */
  lemma KeyshotsRoundTrip(e: Event)
    requires FromServer(e)
    ensures Keyshots(EventJson(e)) == e.keyshots
  {
    var m := EventJson(e);
    var jsons := seq(|e.keyshots|, i requires 0 <= i < |e.keyshots| => KeyshotJson(e.keyshots[i]));
    var shots := seq(|jsons|, i requires 0 <= i < |jsons| => JObj(jsons[i]));
    assert shots == seq(|e.keyshots|, i requires 0 <= i < |e.keyshots| => JObj(KeyshotJson(e.keyshots[i])));
    assert Arr(m, "keyshots") == Some(shots);
    ObjectItemsOfObjects(jsons);
    forall i | 0 <= i < |e.keyshots|
      ensures ProjectKeyshot(jsons[i]) == e.keyshots[i]
    {
      KeyshotRoundTrip(e.keyshots[i]);
    }
  }

  /** Round trip: an event the server could describe reads back as itself. */
  lemma EventRoundTrip(e: Event)
    requires FromServer(e)
    ensures TransformRawEvent(EventJson(e)) == e
  {
    var m := EventJson(e);
    KeyshotsRoundTrip(e);
    assert StrOr(m, "traceId") == e.traceId && StrOr(m, "timestamp") == e.timestamp;
    assert StrOr(m, "deviceName") == e.deviceName && StrOr(m, "serialNumber") == e.serialNumber;
    assert StrOr(m, "adminName") == e.adminName && StrOr(m, "period") == e.period;
    assert StrOr(m, "imageUrl") == e.imageUrl && StrOr(m, "videoUrl") == e.videoUrl;
  }

  // ---------------------------------------------------------------------------
  // The event list
  // ---------------------------------------------------------------------------

  /** The body of an event-list request. Timestamps travel as decimal
      strings of Unix seconds. */
  function EventsPayload(start: int, end: int): JSON {
    JObj(map[
      "startTimestamp" := JStr(Text.FormatInt(start)),
      "endTimestamp" := JStr(Text.FormatInt(end)),
      "language" := JStr("en"),
      "countryNo" := JStr("US")])
  }

  /** The reply handling of `fetchEvents`: a non-zero numeric `code` is an
      API error (`result` is not looked at); a missing `data` object or
      `data.list` array is an empty list; otherwise every object in the
      list, in order, becomes an event. */
  function EventsFromBody(body: Body): (r: Result<seq<Event>, Error>)
    ensures Envelope(body).None? ==> r == Failure(Unmarshal)
    ensures Envelope(body).Some? && Status(body, "code").Some? && Status(body, "code").value != 0 ==>
      r == Failure(ApiReturnedError(MsgOf(body), Status(body, "code").value))
    ensures r.Failure? ==> r.error == Unmarshal || r.error.ApiReturnedError?
    ensures Envelope(body).Some? && Status(body, "code") in {None, Some(0)} ==> r.Success?
    ensures r.Success? && !(At(body.value, ["data", "list"]).Some? && At(body.value, ["data", "list"]).value.JArr?) ==>
      r.value == []
    ensures r.Success? && At(body.value, ["data", "list"]).Some? && At(body.value, ["data", "list"]).value.JArr? ==>
      var items := At(body.value, ["data", "list"]).value.items;
      && |r.value| == |ObjectItems(items)| <= |items|
      && forall i :: 0 <= i < |r.value| ==> r.value[i] == TransformRawEvent(ObjectItems(items)[i])
    ensures r.Success? ==> forall i :: 0 <= i < |r.value| ==> FromServer(r.value[i])
  {
    match Envelope(body)
    case None => Failure(Unmarshal)
    case Some(env) =>
      if Rejects(env, "code") then Failure(ApiReturnedError(Msg(env), Num(env, "code").value))
      else
        match Obj(env, "data")
        case None => Success([])
        case Some(data) =>
          match Arr(data, "list")
          case None => Success([])
          case Some(items) =>
            var objs := ObjectItems(items);
            Success(seq(|objs|, i requires 0 <= i < |objs| => TransformRawEvent(objs[i])))
  }

  /** An event-list reply as the server sends it. */
  function EventListReply(es: seq<Event>): JSON {
    var items := seq(|es|, i requires 0 <= i < |es| => JObj(EventJson(es[i])));
    JObj(map["code" := JNum(0), "msg" := JStr("success"), "data" := JObj(map["list" := JArr(items)])])
  }

  /** Round trip: the events the server lists are the events the client
      shows, in the same order. */
  lemma EventListRoundTrip(es: seq<Event>)
    requires forall i :: 0 <= i < |es| ==> FromServer(es[i])
    ensures EventsFromBody(Some(EventListReply(es))) == Success(es)
  {
    var jsons := seq(|es|, i requires 0 <= i < |es| => EventJson(es[i]));
    var items := seq(|jsons|, i requires 0 <= i < |jsons| => JObj(jsons[i]));
    var reply := EventListReply(es);
    assert items == seq(|es|, i requires 0 <= i < |es| => JObj(EventJson(es[i])));
    assert reply.fields["data"] == JObj(map["list" := JArr(items)]);
    assert Envelope(Some(reply)) == Some(reply.fields);
    assert !Rejects(reply.fields, "code");
    assert Obj(reply.fields, "data") == Some(map["list" := JArr(items)]);
    assert Arr(map["list" := JArr(items)], "list") == Some(items);
    ObjectItemsOfObjects(jsons);
    var events := seq(|jsons|, i requires 0 <= i < |jsons| => TransformRawEvent(jsons[i]));
    forall i | 0 <= i < |es|
      ensures events[i] == es[i]
    {
      EventRoundTrip(es[i]);
    }
    assert events == es;
  }

  /** `fetchEvents`: one request for the window with the caller's token,
      then the reply handling above. */
  function FetchEvents(token: string, start: int, end: int, w: World): (r: Attempt<seq<Event>>)
    ensures r.world == w.(sent := w.sent + [Request(token, EventsPayload(start, end))])
    ensures NextReply(w).DoFailure? ==> r.result == Failure(RequestFailed(false))
    ensures NextReply(w).ReadFailure? ==> r.result == Failure(ReadFailed(false))
    ensures NextReply(w).Delivered? ==> r.result == EventsFromBody(NextReply(w).body)
  {
    var x := Send(w, Request(token, EventsPayload(start, end)));
    match x.reply
    case DoFailure => Attempt(Failure(RequestFailed(false)), x.world)
    case ReadFailure => Attempt(Failure(ReadFailed(false)), x.world)
    case Delivered(body) => Attempt(EventsFromBody(body), x.world)
  }

  /** The window `events list --hours h` asks for: from h hours before now
      until now, in Unix seconds. A negative h is not rejected. */
  datatype Window = Window(start: int, end: int)

  function ListWindow(now: int, hours: int): (r: Window)
    ensures r.end == now
    ensures r.end - r.start == hours * 3600
  {
    Window(now - hours * 3600, now)
  }

  /** The timestamps in the request read back as a window exactly `hours`
      hours long that ends now. */
  lemma ListWindowTimestamps(now: int, hours: int)
    ensures var p := EventsPayload(ListWindow(now, hours).start, ListWindow(now, hours).end).fields;
      && Text.ParseInt(p["endTimestamp"].str) == Some(now)
      && Text.ParseInt(p["startTimestamp"].str).Some?
      && Text.ParseInt(p["endTimestamp"].str).value - Text.ParseInt(p["startTimestamp"].str).value == hours * 3600
  {
    Text.FormatIntRoundTrip(now);
    Text.FormatIntRoundTrip(now - hours * 3600);
  }

  /** What `events list` ends with: an authentication failure, a fetch
      failure, or the events. */
  datatype ListOutcome = ListAuthFailed(authError: Error) | ListFetchFailed(fetchError: Error) | Listed(events: seq<Event>)

  /** `listCmd.Run`: authenticate, then fetch the window ending now. */
  function ListCommand(hours: int, w: World): (r: (ListOutcome, World))
    ensures Auth.Authenticate(w).result.Failure? ==>
      r == (ListAuthFailed(Auth.Authenticate(w).result.error), Auth.Authenticate(w).world)
    ensures Auth.Authenticate(w).result.Success? ==>
      var a := Auth.Authenticate(w);
      && r.1 == a.world.(sent := a.world.sent + [Request(a.result.value, EventsPayload(w.now - hours * 3600, w.now))])
      && (r.0.Listed? <==> FetchEvents(a.result.value, w.now - hours * 3600, w.now, a.world).result.Success?)
      && r.0 == (match FetchEvents(a.result.value, w.now - hours * 3600, w.now, a.world).result
                 case Success(es) => Listed(es)
                 case Failure(e) => ListFetchFailed(e))
  {
    var a := Auth.Authenticate(w);
    match a.result
    case Failure(e) => (ListAuthFailed(e), a.world)
    case Success(token) =>
      var win := ListWindow(w.now, hours);
      var f := FetchEvents(token, win.start, win.end, a.world);
      match f.result
      case Failure(e) => (ListFetchFailed(e), f.world)
      case Success(events) => (Listed(events), f.world)
  }

  // ---------------------------------------------------------------------------
  // A single event
  // ---------------------------------------------------------------------------

  /** The body of a single-event request. */
  function EventPayload(traceId: string): JSON {
    JObj(map["traceId" := JStr(traceId), "language" := JStr("en"), "countryNo" := JStr("US")])
  }

  /** The reply handling of `getEvent`: a non-zero numeric `code` is an API
      error; `data` must be an object; when it has a string `traceId` it is
      the event itself (even if it also has `event`), otherwise `data.event`
      must be an object and is the event. */
  function EventFromBody(body: Body): (r: Result<Event, Error>)
    ensures Envelope(body).None? ==> r == Failure(Unmarshal)
    ensures Envelope(body).Some? && Status(body, "code").Some? && Status(body, "code").value != 0 ==>
      r == Failure(ApiReturnedError(MsgOf(body), Status(body, "code").value))
    ensures Envelope(body).Some? && Status(body, "code") in {None, Some(0)} ==>
      var data := At(body.value, ["data"]);
      && (!(data.Some? && data.value.JObj?) ==> r == Failure(NoEventData))
      && (data.Some? && data.value.JObj? && Str(data.value.fields, "traceId").Some? ==>
            r == Success(TransformRawEvent(data.value.fields)))
      && (data.Some? && data.value.JObj? && Str(data.value.fields, "traceId").None? ==>
            (r.Success? <==> Obj(data.value.fields, "event").Some?) &&
            (r.Success? ==> r.value == TransformRawEvent(Obj(data.value.fields, "event").value)) &&
            (r.Failure? ==> r.error == NoEventData))
    ensures r.Failure? ==> r.error in {Unmarshal, NoEventData} || r.error.ApiReturnedError?
  {
    match Envelope(body)
    case None => Failure(Unmarshal)
    case Some(env) =>
      if Rejects(env, "code") then Failure(ApiReturnedError(Msg(env), Num(env, "code").value))
      else
        match Obj(env, "data")
        case None => Failure(NoEventData)
        case Some(data) =>
          if Str(data, "traceId").Some? then Success(TransformRawEvent(data))
          else
            match Obj(data, "event")
            case None => Failure(NoEventData)
            case Some(ev) => Success(TransformRawEvent(ev))
  }

  /** The two single-event replies the server sends: the event itself as
      `data`, or wrapped as `data.event`. */
  function EventReply(e: Event): JSON {
    JObj(map["code" := JNum(0), "msg" := JStr("success"), "data" := JObj(EventJson(e))])
  }

  function WrappedEventReply(e: Event): JSON {
    JObj(map["code" := JNum(0), "msg" := JStr("success"), "data" := JObj(map["event" := JObj(EventJson(e))])])
  }

  /** Round trip: the event the server describes as `data` is the event
      the client shows. */
  lemma EventReplyRoundTrip(e: Event)
    requires FromServer(e)
    ensures EventFromBody(Some(EventReply(e))) == Success(e)
  {
    var reply := EventReply(e);
    assert Envelope(Some(reply)) == Some(reply.fields);
    assert Obj(reply.fields, "data") == Some(EventJson(e));
    assert Str(EventJson(e), "traceId") == Some(e.traceId);
    EventRoundTrip(e);
  }

  /** Round trip: an event wrapped as `data.event`, with no `traceId` beside
      it, is the event the client shows. */
  lemma WrappedEventReplyRoundTrip(e: Event)
    requires FromServer(e)
    ensures EventFromBody(Some(WrappedEventReply(e))) == Success(e)
  {
    var reply := WrappedEventReply(e);
    var data := map["event" := JObj(EventJson(e))];
    assert Envelope(Some(reply)) == Some(reply.fields);
    assert Obj(reply.fields, "data") == Some(data);
    assert Str(data, "traceId").None?;
    assert Obj(data, "event") == Some(EventJson(e));
    EventRoundTrip(e);
  }

  /** When `data` carries a string `traceId`, it is taken as the event even
      if it also wraps another event under `event`. */
  lemma TraceIdTakesPrecedence(e: Event, other: Event)
    requires FromServer(e)
    ensures var data := EventJson(e)["event" := JObj(EventJson(other))];
      EventFromBody(Some(JObj(map["code" := JNum(0), "data" := JObj(data)]))) == Success(e)
  {
    var data := EventJson(e)["event" := JObj(EventJson(other))];
    var reply := JObj(map["code" := JNum(0), "data" := JObj(data)]);
    assert Envelope(Some(reply)) == Some(reply.fields);
    assert Obj(reply.fields, "data") == Some(data);
    assert Str(data, "traceId") == Some(e.traceId);
    assert EventFromBody(Some(reply)) == Success(TransformRawEvent(data));
    assert TransformRawEvent(data) == e by {
      TransformIgnoresEvent(EventJson(e), JObj(EventJson(other)));
      EventRoundTrip(e);
    }
  }

  /** The `event` key of a raw event is not one the transform reads. */
  lemma TransformIgnoresEvent(m: map<string, JSON>, v: JSON)
    ensures TransformRawEvent(m["event" := v]) == TransformRawEvent(m)
  {
    assert Keyshots(m["event" := v]) == Keyshots(m);
  }

  /** `getEvent`: one request naming the trace ID, then the reply handling
      above. */
  function GetEvent(token: string, traceId: string, w: World): (r: Attempt<Event>)
    ensures r.world == w.(sent := w.sent + [Request(token, EventPayload(traceId))])
    ensures NextReply(w).DoFailure? ==> r.result == Failure(RequestFailed(false))
    ensures NextReply(w).ReadFailure? ==> r.result == Failure(ReadFailed(false))
    ensures NextReply(w).Delivered? ==> r.result == EventFromBody(NextReply(w).body)
  {
    var x := Send(w, Request(token, EventPayload(traceId)));
    match x.reply
    case DoFailure => Attempt(Failure(RequestFailed(false)), x.world)
    case ReadFailure => Attempt(Failure(ReadFailed(false)), x.world)
    case Delivered(body) => Attempt(EventFromBody(body), x.world)
  }
}

=== FILE: json.dfy ===
/** The decoded JSON the client works with, and the type-asserting lookups
    (`m["k"].(string)`, `m["k"].(float64)`, ...) every response handler uses.
    JSON numbers are modelled as integers. */
module Json {
  import opened Wrappers

  datatype JSON =
    | JNull
    | JBool(b: bool)
    | JNum(n: int)
    | JStr(str: string)
    | JArr(items: seq<JSON>)
    | JObj(fields: map<string, JSON>)

  /** A response body. The bytes are identified with what `json.Unmarshal`
      makes of them: `None` stands for bytes that are not JSON at all. */
  type Body = Option<JSON>

  /** Unmarshalling a body into `map[string]interface{}`: an object gives its
      map, the literal `null` leaves the map nil (read as empty) without an
      error, and any other JSON value or non-JSON bytes is an error. */
  function Envelope(body: Body): (r: Option<map<string, JSON>>)
    ensures r.Some? <==> body.Some? && (body.value.JObj? || body.value.JNull?)
    ensures body == Some(JNull) ==> r == Some(map[])
    ensures forall m :: body == Some(JObj(m)) ==> r == Some(m)
  {
    match body
    case Some(JObj(m)) => Some(m)
    case Some(JNull) => Some(map[])
    case _ => None
  }

  /** `m[key].(string)` */
  function Str(m: map<string, JSON>, key: string): Option<string> {
    if key in m && m[key].JStr? then Some(m[key].str) else None
  }

  /** `m[key].(float64)` */
  function Num(m: map<string, JSON>, key: string): Option<int> {
    if key in m && m[key].JNum? then Some(m[key].n) else None
  }

  /** `m[key].(map[string]interface{})` */
  function Obj(m: map<string, JSON>, key: string): Option<map<string, JSON>> {
    if key in m && m[key].JObj? then Some(m[key].fields) else None
  }

  /** `m[key].([]interface{})` */
  function Arr(m: map<string, JSON>, key: string): Option<seq<JSON>> {
    if key in m && m[key].JArr? then Some(m[key].items) else None
  }

  /** A string field, or Go's zero value "" when absent or of another type. */
  function StrOr(m: map<string, JSON>, key: string): string {
    match Str(m, key)
    case Some(s) => s
    case None => ""
  }

  /** A numeric field, or 0 when absent or of another type. */
  function NumOr(m: map<string, JSON>, key: string): int {
    match Num(m, key)
    case Some(v) => v
    case None => 0
  }

  /** The envelope's `msg`, "" when absent (`msg, _ := m["msg"].(string)`). */
  function Msg(env: map<string, JSON>): string {
    StrOr(env, "msg")
  }

  /** The value reached from `j` by following object keys `path`, if every
      step lands on an object holding the next key. */
  function At(j: JSON, path: seq<string>): Option<JSON>
    decreases |path|
  {
    if |path| == 0 then Some(j)
    else if j.JObj? && path[0] in j.fields then At(j.fields[path[0]], path[1..])
    else None
  }

  /** The numeric status field `key` of a body's envelope, if there is one. */
  function Status(body: Body, key: string): Option<int> {
    match Envelope(body)
    case Some(env) => Num(env, key)
    case None => None
  }

  /** The `msg` of a body's envelope, "" when there is none. */
  function MsgOf(body: Body): string {
    match Envelope(body)
    case Some(env) => Msg(env)
    case None => ""
  }

  /** True when the numeric status field `key` is present and non-zero. */
  predicate Rejects(env: map<string, JSON>, key: string) {
    Num(env, key).Some? && Num(env, key).value != 0
  }

  /** The object elements of a JSON array, in order; every other element is
      skipped (the `item.(map[string]interface{})` filter of the list loops). */
  function ObjectItems(items: seq<JSON>): (r: seq<map<string, JSON>>)
    ensures |r| <= |items|
    ensures forall i :: 0 <= i < |r| ==> JObj(r[i]) in items
    ensures (forall i :: 0 <= i < |items| ==> items[i].JObj?) ==> |r| == |items|
  {
    if |items| == 0 then []
    else
      var rest := ObjectItems(items[1..]);
      assert forall j :: 1 <= j < |items| ==> items[j] == items[1..][j - 1];
      if items[0].JObj? then [items[0].fields] + rest else rest
  }

  /** Skipping non-objects commutes with concatenation: the filter keeps the
      relative order of the elements it keeps. */
  lemma {:induction false} ObjectItemsAppend(a: seq<JSON>, b: seq<JSON>)
    ensures ObjectItems(a + b) == ObjectItems(a) + ObjectItems(b)
    decreases |a|
  {
    if |a| == 0 {
      assert a + b == b;
    } else {
      assert (a + b)[1..] == a[1..] + b;
      ObjectItemsAppend(a[1..], b);
    }
  }

  /** An array made only of objects gives back exactly those objects. */
  lemma {:induction false} ObjectItemsOfObjects(ms: seq<map<string, JSON>>)
    ensures ObjectItems(seq(|ms|, i requires 0 <= i < |ms| => JObj(ms[i]))) == ms
    decreases |ms|
  {
    var items := seq(|ms|, i requires 0 <= i < |ms| => JObj(ms[i]));
    if |ms| > 0 {
      var tail := seq(|ms[1..]|, i requires 0 <= i < |ms[1..]| => JObj(ms[1..][i]));
      assert items[1..] == tail;
      ObjectItemsOfObjects(ms[1..]);
      assert ms == [ms[0]] + ms[1..];
    }
  }
}

=== FILE: output.dfy ===
/** Choosing where events are written: standard output as JSON or as a
    table, or an InfluxDB handler built from the output configuration. */
module Output {
  import opened Wrappers

  /** The InfluxDB settings of the output configuration. */
  datatype Config = Config(influxUrl: string, influxOrg: string, influxBucket: string, influxToken: string)

  /** The handlers the factory can return. */
  datatype Handler =
    | JsonHandler
    | TableHandler
    | InfluxHandler(url: string, org: string, bucket: string, token: string)

  datatype OutputError =
    | UnsupportedDestination(destination: string)
    | UrlRequired
    | OrgRequired
    | BucketRequired
    | TokenRequired
    | HandledInMain

  /** The environment variables the configuration is read from. */
  const UrlVariable := "INFLUX_URL"
  const OrgVariable := "INFLUX_ORG"
  const BucketVariable := "INFLUX_BUCKET"
  const TokenVariable := "INFLUX_TOKEN"

  /** An environment variable, or "" when it is unset. */
  function Getenv(env: map<string, string>, key: string): string {
    if key in env then env[key] else ""
  }

  /** `LoadConfigFromEnv`: every setting comes from its variable and is
      empty when the variable is unset or empty. */
  function LoadConfigFromEnv(env: map<string, string>): (c: Config)
    ensures c.influxUrl != "" <==> UrlVariable in env && env[UrlVariable] != ""
    ensures c.influxOrg != "" <==> OrgVariable in env && env[OrgVariable] != ""
    ensures c.influxBucket != "" <==> BucketVariable in env && env[BucketVariable] != ""
    ensures c.influxToken != "" <==> TokenVariable in env && env[TokenVariable] != ""
    ensures c.influxUrl == (if UrlVariable in env then env[UrlVariable] else "")
    ensures c.influxOrg == (if OrgVariable in env then env[OrgVariable] else "")
    ensures c.influxBucket == (if BucketVariable in env then env[BucketVariable] else "")
    ensures c.influxToken == (if TokenVariable in env then env[TokenVariable] else "")
  {
    Config(Getenv(env, UrlVariable), Getenv(env, OrgVariable), Getenv(env, BucketVariable), Getenv(env, TokenVariable))
  }

  /** `NewStdoutHandler`: exactly the format "json" selects JSON; every
      other format, unknown ones included, selects the table. */
  function NewStdoutHandler(format: string): (h: Handler)
    ensures h.JsonHandler? <==> format == "json"
    ensures h.TableHandler? <==> format != "json"
  {
    if format == "json" then JsonHandler else TableHandler
  }

  /** `Factory`: "stdout" and "influxdb" are the only destinations. The
      InfluxDB handler is built without looking at the settings (its
      constructor cannot fail), and the format is ignored for it. */
  function Factory(destination: string, format: string, cfg: Config): (r: Result<Handler, OutputError>)
    ensures r.Success? <==> destination == "stdout" || destination == "influxdb"
    ensures r.Failure? ==> r.error == UnsupportedDestination(destination)
    ensures destination == "stdout" ==> r == Success(NewStdoutHandler(format))
    ensures destination == "influxdb" ==>
      r == Success(InfluxHandler(cfg.influxUrl, cfg.influxOrg, cfg.influxBucket, cfg.influxToken))
  {
    match destination
    case "stdout" => Success(NewStdoutHandler(format))
    case "influxdb" => Success(InfluxHandler(cfg.influxUrl, cfg.influxOrg, cfg.influxBucket, cfg.influxToken))
    case _ => Failure(UnsupportedDestination(destination))
  }

  /** The settings the InfluxDB constructor requires, in the order it
      checks them: the first empty one is reported. */
  function FirstMissing(cfg: Config): Option<OutputError> {
    if cfg.influxUrl == "" then Some(UrlRequired)
    else if cfg.influxOrg == "" then Some(OrgRequired)
    else if cfg.influxBucket == "" then Some(BucketRequired)
    else if cfg.influxToken == "" then Some(TokenRequired)
    else None
  }

  /** `NewInfluxDBHandler`: checks URL, organisation, bucket and token in
      that order, and even with all four present it returns no handler,
      because that construction is left to the main program. */
  function NewInfluxDBHandler(cfg: Config): (r: Result<Handler, OutputError>)
    ensures r.Failure?
    ensures cfg.influxUrl == "" ==> r.error == UrlRequired
    ensures cfg.influxUrl != "" && cfg.influxOrg == "" ==> r.error == OrgRequired
    ensures cfg.influxUrl != "" && cfg.influxOrg != "" && cfg.influxBucket == "" ==> r.error == BucketRequired
    ensures cfg.influxUrl != "" && cfg.influxOrg != "" && cfg.influxBucket != "" && cfg.influxToken == "" ==>
      r.error == TokenRequired
    ensures r.error == HandledInMain <==>
      cfg.influxUrl != "" && cfg.influxOrg != "" && cfg.influxBucket != "" && cfg.influxToken != ""
  {
    match FirstMissing(cfg)
    case Some(e) => Failure(e)
    case None => Failure(HandledInMain)
  }

  /** The two InfluxDB entry points disagree: the factory accepts every
      configuration, including one the validating constructor refuses. */
  lemma FactoryDoesNotValidate(format: string, cfg: Config)
    ensures Factory("influxdb", format, cfg).Success?
    ensures NewInfluxDBHandler(cfg).Failure?
  {
  }

  /** With no InfluxDB variables set, the factory still builds a handler,
      with every setting empty, while the constructor reports the URL. */
  lemma EmptyEnvironment(format: string)
    ensures Factory("influxdb", format, LoadConfigFromEnv(map[])) == Success(InfluxHandler("", "", "", ""))
    ensures NewInfluxDBHandler(LoadConfigFromEnv(map[])) == Failure(UrlRequired)
  {
  }

  /** Whatever the environment holds, the factory's InfluxDB handler carries
      exactly the four variables' values, while the validating constructor
      reports the first variable that is unset or empty. */
  lemma EnvironmentReachesHandler(format: string, env: map<string, string>)
    ensures Factory("influxdb", format, LoadConfigFromEnv(env)) ==
      Success(InfluxHandler(Getenv(env, UrlVariable), Getenv(env, OrgVariable),
                            Getenv(env, BucketVariable), Getenv(env, TokenVariable)))
    ensures NewInfluxDBHandler(LoadConfigFromEnv(env)).error == UrlRequired <==>
      UrlVariable !in env || env[UrlVariable] == ""
    ensures NewInfluxDBHandler(LoadConfigFromEnv(env)).error == HandledInMain <==>
      && UrlVariable in env && env[UrlVariable] != ""
      && OrgVariable in env && env[OrgVariable] != ""
      && BucketVariable in env && env[BucketVariable] != ""
      && TokenVariable in env && env[TokenVariable] != ""
  {
  }

  /** The format only matters for standard output. */
  lemma FormatOnlyForStdout(destination: string, f1: string, f2: string, cfg: Config)
    requires destination != "stdout"
    ensures Factory(destination, f1, cfg) == Factory(destination, f2, cfg)
  {
  }

  /** The destination is matched exactly: any other spelling, such as
      "STDOUT", is unsupported. */
  lemma DestinationIsExact(destination: string, format: string, cfg: Config)
    requires destination != "stdout" && destination != "influxdb"
    ensures Factory(destination, format, cfg) == Failure(UnsupportedDestination(destination))
  {
  }
}

=== FILE: search.dfy ===
/** `events search`: validate the field and the term, read the time window,
    authenticate, fetch the window's events and keep those that match. */
module Search {
  import opened Wrappers
  import opened Json
  import opened ApiErrors
  import opened Env
  import opened Text
  import Auth
  import Events
  import TimeParams

  /** The field names the search understands, after lower-casing. */
  const SearchFields: set<string> := {"serialnumber", "devicename", "birdname"}

  /** `matchesSearch`: field name and term are compared case-insensitively;
      the serial number must equal the term, the device and bird names must
      contain it; any other field matches nothing. */
  function MatchesSearch(e: Events.Event, field: string, term: string): (r: bool)
    ensures Lower(field) == "serialnumber" ==> (r <==> Lower(e.serialNumber) == Lower(term))
    ensures Lower(field) == "devicename" ==> (r <==> exists i :: OccursAt(Lower(e.deviceName), Lower(term), i))
    ensures Lower(field) == "birdname" ==> (r <==> exists i :: OccursAt(Lower(e.birdName), Lower(term), i))
    ensures Lower(field) !in SearchFields ==> !r
  {
    var t := Lower(term);
    ContainsIffOccurs(Lower(e.deviceName), t);
    ContainsIffOccurs(Lower(e.birdName), t);
    match Lower(field)
    case "serialnumber" => Lower(e.serialNumber) == t
    case "devicename" => Contains(Lower(e.deviceName), t)
    case "birdname" => Contains(Lower(e.birdName), t)
    case _ => false
  }

  /** The case of the field name and of the term do not matter. */
  lemma MatchIgnoresCase(e: Events.Event, field1: string, field2: string, term1: string, term2: string)
    requires Lower(field1) == Lower(field2) && Lower(term1) == Lower(term2)
    ensures MatchesSearch(e, field1, term1) == MatchesSearch(e, field2, term2)
  {
  }

  /** Lower-casing the field name and the term beforehand, as the command
      itself does, changes nothing. */
  lemma LoweredQueryMatchesAlike(e: Events.Event, field: string, term: string)
    ensures MatchesSearch(e, Lower(field), Lower(term)) == MatchesSearch(e, field, term)
  {
    LowerIdempotent(field);
    LowerIdempotent(term);
    MatchIgnoresCase(e, Lower(field), field, Lower(term), term);
  }

  /** A serial-number search needs the whole serial number: a shorter or
      longer term never matches. */
  lemma SerialNeedsWholeValue(e: Events.Event, field: string, term: string)
    requires Lower(field) == "serialnumber" && |term| != |e.serialNumber|
    ensures !MatchesSearch(e, field, term)
  {
    assert |Lower(term)| != |Lower(e.serialNumber)|;
  }

  /** A name search accepts any piece of the name, in any case. */
  lemma NamePieceMatches(e: Events.Event, field: string, i: nat, j: nat)
    requires Lower(field) == "devicename" && i <= j <= |e.deviceName|
    ensures MatchesSearch(e, field, e.deviceName[i..j])
  {
    var name := Lower(e.deviceName);
    var piece := Lower(e.deviceName[i..j]);
    assert name[i..j] == piece;
    assert OccursAt(name, piece, i);
  }

  /** Events built from a server reply never carry a bird name, so a bird
      name search with a non-empty term matches none of them. */
  lemma BirdNameNeverMatches(e: Events.Event, field: string, term: string)
    requires Events.FromServer(e) && Lower(field) == "birdname" && term != ""
    ensures !MatchesSearch(e, field, term)
  {
    assert Lower(e.birdName) == "";
    assert |Lower(term)| > 0;
  }

  /** The matching events, in their original order. */
  function Filter(events: seq<Events.Event>, field: string, term: string): (r: seq<Events.Event>)
    ensures |r| <= |events|
    ensures forall e :: e in r <==> e in events && MatchesSearch(e, field, term)
    decreases |events|
  {
    if |events| == 0 then []
    else
      var rest := Filter(events[1..], field, term);
      assert forall e :: e in events <==> e == events[0] || e in events[1..];
      if MatchesSearch(events[0], field, term) then [events[0]] + rest else rest
  }

  /** Filtering keeps order: filtering a concatenation concatenates the
      filtered parts. */
  lemma {:induction false} FilterAppend(a: seq<Events.Event>, b: seq<Events.Event>, field: string, term: string)
    ensures Filter(a + b, field, term) == Filter(a, field, term) + Filter(b, field, term)
    decreases |a|
  {
    if |a| > 0 {
      var ab := a + b;
      assert ab[0] == a[0] && ab[1..] == a[1..] + b;
      FilterAppend(a[1..], b, field, term);
      var rest := Filter(a[1..], field, term);
      if MatchesSearch(a[0], field, term) {
        assert Filter(ab, field, term) == [a[0]] + (rest + Filter(b, field, term));
        assert Filter(a, field, term) == [a[0]] + rest;
      } else {
        assert Filter(ab, field, term) == rest + Filter(b, field, term);
      }
    } else {
      assert a + b == b;
    }
  }

  /** Filtering a second time changes nothing. */
  lemma {:induction false} FilterIdempotent(events: seq<Events.Event>, field: string, term: string)
    ensures Filter(Filter(events, field, term), field, term) == Filter(events, field, term)
    decreases |events|
  {
    if |events| > 0 {
      FilterIdempotent(events[1..], field, term);
      var rest := Filter(events[1..], field, term);
      if MatchesSearch(events[0], field, term) {
        assert ([events[0]] + rest)[1..] == rest;
      }
    }
  }

  /** The term searched for: `--value`, or else the first argument. */
  function SearchTerm(value: string, args: seq<string>): (t: string)
    ensures value != "" ==> t == value
    ensures value == "" ==> t == (if |args| > 0 then args[0] else "")
  {
    if value == "" && |args| > 0 then args[0] else value
  }

  /** What `events search` ends with. */
  datatype SearchOutcome =
    | FieldRequired
    | TermRequired
    | TimeInvalid(timeError: TimeParams.TimeError)
    | SearchAuthFailed(authError: Error)
    | SearchFetchFailed(fetchError: Error)
    | NoMatches
    | Found(events: seq<Events.Event>)

  /** The tail of `searchCmd.Run`: fetch the window's events with the
      token and keep the matching ones. */
  function FetchAndFilter(token: string, startSeconds: int, endSeconds: int, field: string, term: string, w: World): (r: (SearchOutcome, World))
    ensures r.1 == w.(sent := w.sent + [Request(token, Events.EventsPayload(startSeconds, endSeconds))])
    ensures r.0.SearchFetchFailed? || r.0.NoMatches? || r.0.Found?
    ensures r.0.SearchFetchFailed? <==> Events.FetchEvents(token, startSeconds, endSeconds, w).result.Failure?
    ensures r.0.Found? ==> |r.0.events| > 0 && forall e :: e in r.0.events ==> MatchesSearch(e, field, term)
    ensures r.0.Found? ==> forall e :: e in r.0.events ==> e in Events.FetchEvents(token, startSeconds, endSeconds, w).result.value
    ensures r.0.Found? ==>
      r.0.events == Filter(Events.FetchEvents(token, startSeconds, endSeconds, w).result.value, field, term)
    ensures r.0.NoMatches? ==> forall e :: e in Events.FetchEvents(token, startSeconds, endSeconds, w).result.value ==> !MatchesSearch(e, field, term)
    ensures r.0.NoMatches? <==>
      && Events.FetchEvents(token, startSeconds, endSeconds, w).result.Success?
      && Filter(Events.FetchEvents(token, startSeconds, endSeconds, w).result.value, field, term) == []
  {
    var f := Events.FetchEvents(token, startSeconds, endSeconds, w);
    match f.result
    case Failure(e) => (SearchFetchFailed(e), f.world)
    case Success(events) =>
      var found := Filter(events, field, term);
      if |found| == 0 then (NoMatches, f.world) else (Found(found), f.world)
  }

  /** `searchCmd.Run`. `rfc3339` stands for RFC 3339 parsing; the start
      and end strings are the flag values (their defaults are computed from
      the clock when the program starts). The field and the term are
      checked first, then the window, all before any request. */
  function SearchCommand(field: string, value: string, args: seq<string>, startTime: string, endTime: string,
                         rfc3339: string -> Option<int>, w: World): (r: (SearchOutcome, World))
    ensures field == "" ==> r == (FieldRequired, w)
    ensures field != "" && SearchTerm(value, args) == "" ==> r == (TermRequired, w)
    ensures (field != "" && SearchTerm(value, args) != "" &&
             TimeParams.ParseTimeParameters(startTime, endTime, rfc3339).Failure?) ==>
      r == (TimeInvalid(TimeParams.ParseTimeParameters(startTime, endTime, rfc3339).error), w)
    ensures (field != "" && SearchTerm(value, args) != "" &&
             TimeParams.ParseTimeParameters(startTime, endTime, rfc3339).Success? &&
             Auth.Authenticate(w).result.Failure?) ==>
      r == (SearchAuthFailed(Auth.Authenticate(w).result.error), Auth.Authenticate(w).world)
    ensures (field != "" && SearchTerm(value, args) != "" &&
             TimeParams.ParseTimeParameters(startTime, endTime, rfc3339).Success? &&
             Auth.Authenticate(w).result.Success?) ==>
      var window := TimeParams.ParseTimeParameters(startTime, endTime, rfc3339).value;
      var a := Auth.Authenticate(w);
      r == FetchAndFilter(a.result.value, TimeParams.UnixSeconds(window.0), TimeParams.UnixSeconds(window.1),
                          field, SearchTerm(value, args), a.world)
  {
    if field == "" then (FieldRequired, w)
    else
      var term := SearchTerm(value, args);
      if term == "" then (TermRequired, w)
      else
        match TimeParams.ParseTimeParameters(startTime, endTime, rfc3339)
        case Failure(e) => (TimeInvalid(e), w)
        case Success(window) =>
          var a := Auth.Authenticate(w);
          match a.result
          case Failure(e) => (SearchAuthFailed(e), a.world)
          case Success(token) =>
            FetchAndFilter(token, TimeParams.UnixSeconds(window.0), TimeParams.UnixSeconds(window.1), field, term, a.world)
  }

  /** Seconds of instants keep their order. */
  lemma UnixSecondsMonotone(a: int, b: int)
    requires a <= b
    ensures TimeParams.UnixSeconds(a) <= TimeParams.UnixSeconds(b)
  {
  }

  /** The window sent to the server is never inverted: for a start no later
      than the end (as `ParseTimeParameters` guarantees), the start timestamp
      reads back as a number no larger than the end timestamp. */
  lemma SearchWindowOrdered(startInstant: int, endInstant: int)
    requires startInstant <= endInstant
    ensures var p := Events.EventsPayload(TimeParams.UnixSeconds(startInstant), TimeParams.UnixSeconds(endInstant)).fields;
      && ParseInt(p["startTimestamp"].str).Some? && ParseInt(p["endTimestamp"].str).Some?
      && ParseInt(p["startTimestamp"].str).value <= ParseInt(p["endTimestamp"].str).value
  {
    var a, b := TimeParams.UnixSeconds(startInstant), TimeParams.UnixSeconds(endInstant);
    var p := Events.EventsPayload(a, b).fields;
    assert p["startTimestamp"].str == FormatInt(a) && p["endTimestamp"].str == FormatInt(b);
    UnixSecondsMonotone(startInstant, endInstant);
    FormatIntRoundTrip(a);
    FormatIntRoundTrip(b);
  }

  /** A bird name search never finds anything, whatever the server says. */
  lemma BirdSearchFindsNothing(token: string, startSeconds: int, endSeconds: int, field: string, term: string, w: World)
    requires Lower(field) == "birdname" && term != ""
    ensures !FetchAndFilter(token, startSeconds, endSeconds, field, term, w).0.Found?
  {
    var r := FetchAndFilter(token, startSeconds, endSeconds, field, term, w);
    if r.0.Found? {
      var e := r.0.events[0];
      var events := Events.FetchEvents(token, startSeconds, endSeconds, w).result.value;
      assert e in events;
      BirdNameNeverMatches(e, field, term);
      assert false;
    }
  }
}

=== FILE: text.dfy ===
/** String helpers the client relies on: `strings.ToLower` (on ASCII),
    `strings.Contains`, and the decimal rendering of integers that `%d` and
    `%.0f` produce for whole numbers. */
module Text {
  import opened Wrappers

  /** One character of `strings.ToLower`, restricted to ASCII letters. */
  function LowerChar(c: char): char {
    if 'A' <= c <= 'Z' then (c as int + 32) as char else c
  }

  /** `strings.ToLower` on ASCII: each upper-case letter becomes lower case,
      every other character is kept. */
  function Lower(s: string): (r: string)
    ensures |r| == |s|
    ensures forall i :: 0 <= i < |s| ==> r[i] == LowerChar(s[i])
    ensures forall i :: 0 <= i < |r| ==> !('A' <= r[i] <= 'Z')
  {
    seq(|s|, i requires 0 <= i < |s| => LowerChar(s[i]))
  }

  /** Lower-casing twice is lower-casing once. */
  lemma LowerIdempotent(s: string)
    ensures Lower(Lower(s)) == Lower(s)
  {
  }

  /** `t` occurs in `s` at position `i`. */
  predicate OccursAt(s: string, t: string, i: int) {
    0 <= i && i + |t| <= |s| && s[i..i + |t|] == t
  }

  /** `strings.Contains(s, t)`: scan for `t` from the left. */
  function Contains(s: string, t: string): bool
    decreases |s|
  {
    if |t| > |s| then false
    else if s[..|t|] == t then true
    else Contains(s[1..], t)
  }

  /** The scan finds `t` exactly when `t` occurs somewhere in `s`. */
  lemma {:induction false} ContainsIffOccurs(s: string, t: string)
    ensures Contains(s, t) <==> exists i :: OccursAt(s, t, i)
    decreases |s|
  {
    if |t| > |s| {
      assert forall i :: !OccursAt(s, t, i);
    } else if s[..|t|] == t {
      assert OccursAt(s, t, 0);
    } else {
      ContainsIffOccurs(s[1..], t);
      if Contains(s[1..], t) {
        var i :| OccursAt(s[1..], t, i);
        assert s[1..][i..i + |t|] == s[i + 1..i + 1 + |t|];
        assert OccursAt(s, t, i + 1);
      } else {
        forall i | OccursAt(s, t, i)
          ensures false
        {
          assert i != 0;
          assert s[1..][i - 1..i - 1 + |t|] == s[i..i + |t|];
          assert OccursAt(s[1..], t, i - 1);
        }
      }
    }
  }

  predicate IsDigit(c: char) {
    '0' <= c <= '9'
  }

  predicate AllDigits(s: string) {
    forall i :: 0 <= i < |s| ==> IsDigit(s[i])
  }

  function DigitChar(d: int): (c: char)
    requires 0 <= d < 10
    ensures IsDigit(c) && c as int - '0' as int == d
  {
    (d + '0' as int) as char
  }

  function DigitValue(c: char): int
    requires IsDigit(c)
  {
    c as int - '0' as int
  }

  /** Decimal digits of a natural number, most significant first, no
      leading zero. */
  function FormatNat(n: nat): (s: string)
    ensures |s| >= 1 && AllDigits(s)
    ensures |s| > 1 ==> s[0] != '0'
    decreases n
  {
    if n < 10 then [DigitChar(n)] else FormatNat(n / 10) + [DigitChar(n % 10)]
  }

  /** The value of a string of decimal digits. */
  function ParseNat(s: string): nat
    requires AllDigits(s)
    decreases |s|
  {
    if |s| == 0 then 0 else ParseNat(s[..|s| - 1]) * 10 + DigitValue(s[|s| - 1])
  }

  lemma {:induction false} ParseFormatNat(n: nat)
    ensures ParseNat(FormatNat(n)) == n
    decreases n
  {
    if n >= 10 {
      var s := FormatNat(n);
      assert s[..|s| - 1] == FormatNat(n / 10);
      ParseFormatNat(n / 10);
    }
  }

  /** `fmt.Sprintf("%d", i)`: an optional minus sign, then the digits. */
  function FormatInt(i: int): string {
    if i < 0 then "-" + FormatNat(-i) else FormatNat(i)
  }

  /** Reads back what `FormatInt` writes: `None` for anything that is not an
      optional minus sign followed by at least one digit. */
  function ParseInt(s: string): Option<int> {
    if |s| > 1 && s[0] == '-' && AllDigits(s[1..]) then Some(-(ParseNat(s[1..]) as int))
    else if |s| > 0 && AllDigits(s) then Some(ParseNat(s))
    else None
  }

  /** Integers survive the trip through their decimal rendering. */
  lemma FormatIntRoundTrip(i: int)
    ensures ParseInt(FormatInt(i)) == Some(i)
  {
    if i < 0 {
      var s := FormatInt(i);
      assert s[1..] == FormatNat(-i);
      ParseFormatNat(-i);
    } else {
      ParseFormatNat(i);
    }
  }
}

=== FILE: time_params.dfy ===
/** The `--startTime` / `--endTime` parameters of `events search`: each is
    read with the layout "2006-01-02 15:04:05" (UTC) first and RFC 3339
    second, and the start may not lie after the end.

    The first layout is parsed here as Go's `time.Parse` reads it: a
    four-digit year, two-digit month and day, one or more spaces, a one- or
    two-digit hour, two-digit minute and second, an optional fraction
    (`.` or `,` then digits, at most nine of them significant), nothing after;
    month, day, hour, minute and second must be in range. RFC 3339 parsing
    is a parameter. Instants are nanoseconds since the Unix epoch. */
module TimeParams {
  import opened Wrappers
  import opened Text

  datatype Layout = StdLayout | Rfc3339Layout

  /** The layouts in the order they are tried. */
  const Layouts: seq<Layout> := [StdLayout, Rfc3339Layout]

  const NanosPerSecond: int := 1_000_000_000

  datatype DateTime = DateTime(year: int, month: int, day: int, hour: int, minute: int, second: int, nanos: int)

  predicate IsLeap(year: int) {
    year % 4 == 0 && (year % 100 != 0 || year % 400 == 0)
  }

  function DaysIn(month: int, year: int): int
    requires 1 <= month <= 12
  {
    if month == 2 then (if IsLeap(year) then 29 else 28)
    else if month in {4, 6, 9, 11} then 30
    else 31
  }

  /** The date-times the standard layout can denote. */
  predicate Valid(dt: DateTime) {
    && 0 <= dt.year <= 9999
    && 1 <= dt.month <= 12
    && 1 <= dt.day <= DaysIn(dt.month, dt.year)
    && 0 <= dt.hour <= 23
    && 0 <= dt.minute <= 59
    && 0 <= dt.second <= 59
    && 0 <= dt.nanos < NanosPerSecond
  }

  /** Days from 1970-01-01 to the given proleptic Gregorian date. */
  function DaysFromCivil(year: int, month: int, day: int): int
    requires 1 <= month <= 12
  {
    var y := if month <= 2 then year - 1 else year;
    var era := y / 400;
    var yoe := y - era * 400;
    var mp := if month > 2 then month - 3 else month + 9;
    var doy := (153 * mp + 2) / 5 + day - 1;
    var doe := yoe * 365 + yoe / 4 - yoe / 100 + doy;
    era * 146097 + doe - 719468
  }

  /** The instant a UTC date-time denotes. */
  function ToInstant(dt: DateTime): int
    requires Valid(dt)
  {
    var days := DaysFromCivil(dt.year, dt.month, dt.day);
    (days * 86400 + dt.hour * 3600 + dt.minute * 60 + dt.second) * NanosPerSecond + dt.nanos
  }

  /** Whole Unix seconds of an instant (`Time.Unix`, which rounds down). */
  function UnixSeconds(instant: int): int {
    instant / NanosPerSecond
  }

  // ---------------------------------------------------------------------------
  // The standard layout
  // ---------------------------------------------------------------------------

  /** Exactly two digits at the front (`getnum` with a fixed width). */
  function TwoDigits(s: string): (r: Option<int>)
    ensures r.Some? ==> 0 <= r.value <= 99
  {
    if |s| >= 2 && IsDigit(s[0]) && IsDigit(s[1]) then Some(DigitValue(s[0]) * 10 + DigitValue(s[1]))
    else None
  }

  /** One or two digits at the front (`getnum` without a fixed width):
      the value and how many characters it took. */
  function OneOrTwoDigits(s: string): (r: Option<(int, nat)>)
    ensures r.Some? ==> 0 <= r.value.0 <= 99 && 1 <= r.value.1 <= 2 && r.value.1 <= |s|
  {
    if |s| >= 1 && IsDigit(s[0]) then
      if |s| >= 2 && IsDigit(s[1]) then Some((DigitValue(s[0]) * 10 + DigitValue(s[1]), 2))
      else Some((DigitValue(s[0]), 1))
    else None
  }

  /** Four digits at the front, read as a year. */
  function FourDigits(s: string): (r: Option<int>)
    ensures r.Some? ==> 0 <= r.value <= 9999
  {
    if |s| >= 4 && IsDigit(s[0]) && IsDigit(s[1]) && IsDigit(s[2]) && IsDigit(s[3]) then
      Some(DigitValue(s[0]) * 1000 + DigitValue(s[1]) * 100 + DigitValue(s[2]) * 10 + DigitValue(s[3]))
    else None
  }

  /** The string without its leading spaces. */
  function CutSpace(s: string): (r: string)
    ensures |r| <= |s|
    ensures |r| > 0 ==> r[0] != ' '
    decreases |s|
  {
    if |s| > 0 && s[0] == ' ' then CutSpace(s[1..]) else s
  }

  /** How many digits `s` starts with. */
  function LeadingDigits(s: string): (n: nat)
    ensures n <= |s|
    ensures forall i :: 0 <= i < n ==> IsDigit(s[i])
    decreases |s|
  {
    if |s| > 0 && IsDigit(s[0]) then 1 + LeadingDigits(s[1..]) else 0
  }

  function Pow10(n: nat): (r: nat)
    ensures r >= 1
  {
    if n == 0 then 1 else 10 * Pow10(n - 1)
  }

  /** The nanoseconds a fraction's digits stand for: the first nine digits,
      scaled up when there are fewer. */
  function FractionNanos(digits: string): (r: int)
    requires |digits| >= 1 && AllDigits(digits)
    ensures 0 <= r < NanosPerSecond
  {
    var used := if |digits| > 9 then digits[..9] else digits;
    ParseNatBelow(used);
    ScaleBelow(ParseNat(used), |used|, 9 - |used|);
    Pow10Nine();
    ParseNat(used) * Pow10(9 - |used|)
  }

  /** A run of k digits denotes a number below 10^k. */
  lemma {:induction false} ParseNatBelow(s: string)
    requires AllDigits(s)
    ensures ParseNat(s) < Pow10(|s|)
    decreases |s|
  {
    if |s| > 0 {
      ParseNatBelow(s[..|s| - 1]);
    }
  }

  lemma {:induction false} Pow10Add(a: nat, b: nat)
    ensures Pow10(a) * Pow10(b) == Pow10(a + b)
    decreases a
  {
    if a > 0 {
      Pow10Add(a - 1, b);
    }
  }

  lemma ScaleBelow(x: nat, a: nat, b: nat)
    requires x < Pow10(a)
    ensures x * Pow10(b) < Pow10(a + b)
  {
    Pow10Add(a, b);
    var pa, pb := Pow10(a), Pow10(b);
    var gap: nat := pa - x;
    assert pa * pb == x * pb + gap * pb by {
      assert pa == x + gap;
    }
    assert gap * pb >= 1 by {
      assert gap >= 1 && pb >= 1;
    }
  }

  lemma Pow10Nine()
    ensures Pow10(9) == NanosPerSecond
  {
    assert Pow10(3) == 1000;
    assert Pow10(6) == 1000 * Pow10(3);
    assert Pow10(9) == 1000 * Pow10(6);
  }

  /** The date part "2006-01-02": year, month in range, day (its range is
      judged once the whole value is read), and the text after it. */
  datatype DatePart = DatePart(year: int, month: int, day: int, rest: string)

  function ParseDate(s: string): (r: Option<DatePart>)
    ensures r.Some? ==> 0 <= r.value.year <= 9999 && 1 <= r.value.month <= 12 && 0 <= r.value.day <= 99
  {
    match FourDigits(s)
    case None => None
    case Some(year) =>
      var s1 := s[4..];
      if |s1| < 1 || s1[0] != '-' then None
      else
        match TwoDigits(s1[1..])
        case None => None
        case Some(month) =>
          var s2 := s1[3..];
          if month < 1 || month > 12 || |s2| < 1 || s2[0] != '-' then None
          else
            match TwoDigits(s2[1..])
            case None => None
            case Some(day) => Some(DatePart(year, month, day, s2[3..]))
  }

  /** The clock part "15:04:05" with its optional fraction; nothing may
      follow it. */
  datatype ClockPart = ClockPart(hour: int, minute: int, second: int, nanos: int)

  function ParseClock(s: string): (r: Option<ClockPart>)
    ensures r.Some? ==> 0 <= r.value.hour <= 23 && 0 <= r.value.minute <= 59 && 0 <= r.value.second <= 59
    ensures r.Some? ==> 0 <= r.value.nanos < NanosPerSecond
  {
    match OneOrTwoDigits(s)
    case None => None
    case Some(hourTaken) =>
      var hour := hourTaken.0;
      var s5 := s[hourTaken.1..];
      if hour > 23 || |s5| < 1 || s5[0] != ':' then None
      else
        match TwoDigits(s5[1..])
        case None => None
        case Some(minute) =>
          var s6 := s5[3..];
          if minute > 59 || |s6| < 1 || s6[0] != ':' then None
          else
            match TwoDigits(s6[1..])
            case None => None
            case Some(second) =>
              var s7 := s6[3..];
              if second > 59 then None
              else
                var hasFraction := |s7| >= 2 && (s7[0] == '.' || s7[0] == ',') && IsDigit(s7[1]);
                var n := if hasFraction then 1 + LeadingDigits(s7[1..]) else 0;
                var nanos := if hasFraction then FractionNanos(s7[1..n]) else 0;
                if n < |s7| then None
                else Some(ClockPart(hour, minute, second, nanos))
  }

  /** `time.Parse("2006-01-02 15:04:05", s)`: the date, the layout's space
      (one or more spaces in the value), the clock; the day must exist in
      its month. */
  function ParseStd(s: string): (r: Option<DateTime>)
    ensures r.Some? ==> Valid(r.value)
  {
    match ParseDate(s)
    case None => None
    case Some(d) =>
      if |d.rest| > 0 && d.rest[0] != ' ' then None
      else
        match ParseClock(CutSpace(d.rest))
        case None => None
        case Some(c) =>
          if d.day < 1 || d.day > DaysIn(d.month, d.year) then None
          else Some(DateTime(d.year, d.month, d.day, c.hour, c.minute, c.second, c.nanos))
  }

  function Pad2(n: int): (s: string)
    requires 0 <= n <= 99
    ensures |s| == 2
  {
    [DigitChar(n / 10), DigitChar(n % 10)]
  }

  function Pad4(n: int): (s: string)
    requires 0 <= n <= 9999
    ensures |s| == 4
  {
    var q1 := n / 10;
    var q2 := q1 / 10;
    [DigitChar(q2 / 10), DigitChar(q2 % 10), DigitChar(q1 % 10), DigitChar(n % 10)]
  }

  function FormatDate(year: int, month: int, day: int): (s: string)
    requires 0 <= year <= 9999 && 0 <= month <= 99 && 0 <= day <= 99
    ensures |s| == 10
  {
    Pad4(year) + "-" + Pad2(month) + "-" + Pad2(day)
  }

  function FormatClock(hour: int, minute: int, second: int): (s: string)
    requires 0 <= hour <= 99 && 0 <= minute <= 99 && 0 <= second <= 99
    ensures |s| == 8
  {
    Pad2(hour) + ":" + Pad2(minute) + ":" + Pad2(second)
  }

  /** A whole-second date-time written in the standard layout. */
  function FormatStd(dt: DateTime): (s: string)
    requires Valid(dt)
    ensures |s| == 19
  {
    FormatDate(dt.year, dt.month, dt.day) + " " + FormatClock(dt.hour, dt.minute, dt.second)
  }

  lemma Pad2Reads(n: int, rest: string)
    requires 0 <= n <= 99
    ensures TwoDigits(Pad2(n) + rest) == Some(n)
    ensures OneOrTwoDigits(Pad2(n) + rest) == Some((n, 2))
  {
  }

  lemma Pad4Reads(n: int, rest: string)
    requires 0 <= n <= 9999
    ensures FourDigits(Pad4(n) + rest) == Some(n)
  {
    var s := Pad4(n) + rest;
    var q1 := n / 10;
    var q2 := q1 / 10;
    assert s[0] == DigitChar(q2 / 10) && s[1] == DigitChar(q2 % 10);
    assert s[2] == DigitChar(q1 % 10) && s[3] == DigitChar(n % 10);
    assert q2 == q2 / 10 * 10 + q2 % 10;
    assert q1 == q2 * 10 + q1 % 10;
    assert n == q1 * 10 + n % 10;
  }

  lemma {:induction false} DateRoundTrip(year: int, month: int, day: int, rest: string)
    requires 0 <= year <= 9999 && 1 <= month <= 12 && 0 <= day <= 99
    ensures ParseDate(FormatDate(year, month, day) + rest) == Some(DatePart(year, month, day, rest))
  {
    var s := FormatDate(year, month, day) + rest;
    var s2 := "-" + Pad2(day) + rest;
    var s1 := "-" + Pad2(month) + s2;
    assert s == Pad4(year) + s1;
    Pad4Reads(year, s1);
    assert s[4..] == s1;
    Pad2Reads(month, s2);
    assert s1[1..] == Pad2(month) + s2;
    assert s1[3..] == s2;
    Pad2Reads(day, rest);
    assert s2[1..] == Pad2(day) + rest;
    assert s2[3..] == rest;
  }

  lemma {:induction false} ClockRoundTrip(hour: int, minute: int, second: int)
    requires 0 <= hour <= 23 && 0 <= minute <= 59 && 0 <= second <= 59
    ensures ParseClock(FormatClock(hour, minute, second)) == Some(ClockPart(hour, minute, second, 0))
  {
    var s := FormatClock(hour, minute, second);
    var s6 := ":" + Pad2(second);
    var s5 := ":" + Pad2(minute) + s6;
    assert s == Pad2(hour) + s5;
    Pad2Reads(hour, s5);
    assert s[2..] == s5;
    Pad2Reads(minute, s6);
    assert s5[1..] == Pad2(minute) + s6;
    assert s5[3..] == s6;
    Pad2Reads(second, "");
    assert s6[1..] == Pad2(second) + "";
    assert s6[3..] == "";
  }

  /** Round trip: a whole-second date-time written in the standard layout
      parses back to itself. */
  lemma {:induction false} StdRoundTrip(dt: DateTime)
    requires Valid(dt) && dt.nanos == 0
    ensures ParseStd(FormatStd(dt)) == Some(dt)
  {
    var clock := FormatClock(dt.hour, dt.minute, dt.second);
    var rest := " " + clock;
    assert FormatStd(dt) == FormatDate(dt.year, dt.month, dt.day) + rest;
    DateRoundTrip(dt.year, dt.month, dt.day, rest);
    assert clock[0] != ' ';
    assert CutSpace(rest) == CutSpace(clock) == clock;
    ClockRoundTrip(dt.hour, dt.minute, dt.second);
  }

  // ---------------------------------------------------------------------------
  // Trying the layouts in order
  // ---------------------------------------------------------------------------

  /** Parse with one layout; `rfc3339` stands for `time.Parse(time.RFC3339, ·)`. */
  function ParseWith(layout: Layout, s: string, rfc3339: string -> Option<int>): Option<int> {
    match layout
    case StdLayout =>
      (match ParseStd(s)
       case Some(dt) => Some(ToInstant(dt))
       case None => None)
    case Rfc3339Layout => rfc3339(s)
  }

  /** The format loop: the first layout that parses wins. */
  function ParseFirst(layouts: seq<Layout>, s: string, rfc3339: string -> Option<int>): (r: Option<int>)
    ensures r.Some? <==> exists i :: 0 <= i < |layouts| && ParseWith(layouts[i], s, rfc3339).Some?
    ensures r.Some? ==> exists i :: 0 <= i < |layouts| && r == ParseWith(layouts[i], s, rfc3339) &&
                                   (forall j :: 0 <= j < i ==> ParseWith(layouts[j], s, rfc3339).None?)
    decreases |layouts|
  {
    if |layouts| == 0 then None
    else
      match ParseWith(layouts[0], s, rfc3339)
      case Some(t) => Some(t)
      case None =>
        var r := ParseFirst(layouts[1..], s, rfc3339);
        assert forall i :: 1 <= i < |layouts| ==> layouts[i] == layouts[1..][i - 1];
        r
  }

  /** The standard layout is tried first: when it parses, RFC 3339 is never
      consulted; when it does not, RFC 3339 decides. */
  lemma StdLayoutFirst(s: string, rfc3339: string -> Option<int>)
    ensures ParseStd(s).Some? ==> ParseFirst(Layouts, s, rfc3339) == Some(ToInstant(ParseStd(s).value))
    ensures ParseStd(s).None? ==> ParseFirst(Layouts, s, rfc3339) == rfc3339(s)
  {
    assert Layouts[1..] == [Rfc3339Layout];
    assert Layouts[1..][1..] == [];
  }

  datatype TimeError = InvalidStart | InvalidEnd | StartAfterEnd

  /** `parseTimeParameters`: the start is read first and an unreadable start
      is reported without looking at the end; then the end; then a start
      strictly after the end is refused. Equal instants are accepted. */
  function ParseTimeParameters(startTime: string, endTime: string, rfc3339: string -> Option<int>): (r: Result<(int, int), TimeError>)
    ensures ParseFirst(Layouts, startTime, rfc3339).None? ==> r == Failure(InvalidStart)
    ensures ParseFirst(Layouts, startTime, rfc3339).Some? && ParseFirst(Layouts, endTime, rfc3339).None? ==>
      r == Failure(InvalidEnd)
    ensures r.Success? ==>
      && Some(r.value.0) == ParseFirst(Layouts, startTime, rfc3339)
      && Some(r.value.1) == ParseFirst(Layouts, endTime, rfc3339)
      && r.value.0 <= r.value.1
    ensures r.Success? <==>
      && ParseFirst(Layouts, startTime, rfc3339).Some?
      && ParseFirst(Layouts, endTime, rfc3339).Some?
      && ParseFirst(Layouts, startTime, rfc3339).value <= ParseFirst(Layouts, endTime, rfc3339).value
    ensures r == Failure(StartAfterEnd) <==>
      && ParseFirst(Layouts, startTime, rfc3339).Some?
      && ParseFirst(Layouts, endTime, rfc3339).Some?
      && ParseFirst(Layouts, startTime, rfc3339).value > ParseFirst(Layouts, endTime, rfc3339).value
  {
    match ParseFirst(Layouts, startTime, rfc3339)
    case None => Failure(InvalidStart)
    case Some(start) =>
      match ParseFirst(Layouts, endTime, rfc3339)
      case None => Failure(InvalidEnd)
      case Some(end) =>
        if start > end then Failure(StartAfterEnd) else Success((start, end))
  }

  /** The start is judged before the end is looked at: with an unreadable
      start, the end string makes no difference. */
  lemma InvalidStartIgnoresEnd(startTime: string, end1: string, end2: string, rfc3339: string -> Option<int>)
    requires ParseFirst(Layouts, startTime, rfc3339).None?
    ensures ParseTimeParameters(startTime, end1, rfc3339) == ParseTimeParameters(startTime, end2, rfc3339)
  {
  }

  /** Equal start and end strings are always accepted when they parse. */
  lemma EqualTimesAccepted(t: string, rfc3339: string -> Option<int>)
    requires ParseFirst(Layouts, t, rfc3339).Some?
    ensures ParseTimeParameters(t, t, rfc3339).Success?
  {
  }
}

=== FILE: token_cache.dfy ===
/** The file-backed token cache (`~/.vicohome/auth.json`), as a value.
    The file is one of: absent, present but unreadable, readable but not a
    token record, or a record of a token and its expiry. Time is an integer
    number of seconds, passed in where the source calls `time.Now()`. */
module TokenCache {
  import opened Wrappers

  const SecondsPerHour: int := 3600
  /** The validity used when a caller passes a non-positive duration. */
  const DefaultHours: int := 24

  datatype CacheFile =
    | Missing
    | Unreadable
    | Garbage
    | Entry(token: string, expiresAt: int)

  /** The cache file together with what the filesystem allows on it. */
  datatype Disk = Disk(file: CacheFile, canWrite: bool, canRemove: bool)

  datatype CacheError = WriteFailed | RemoveFailed

  /** What `GetToken` returns: the token and whether it may be used. */
  datatype Lookup = Lookup(token: string, valid: bool)

  /** The disk after a write or a removal, and the error it reported. */
  datatype Written = Written(disk: Disk, outcome: Outcome<CacheError>)

  /** `SaveToken`: store the token with an expiry `durationHours` hours from
      now, 24 hours when the duration is not positive. A failed write is
      reported and leaves the file as it was. */
  function SaveToken(d: Disk, token: string, durationHours: int, now: int): (r: Written)
    ensures r.disk.canWrite == d.canWrite && r.disk.canRemove == d.canRemove
    ensures d.canWrite ==> r.outcome.Pass? && r.disk.file.Entry? && r.disk.file.token == token
    ensures d.canWrite ==>
      r.disk.file.expiresAt == now + SecondsPerHour * (if durationHours <= 0 then DefaultHours else durationHours)
    ensures d.canWrite ==> r.disk.file.expiresAt > now
    ensures !d.canWrite ==> r.outcome == Fail(WriteFailed) && r.disk == d
  {
    var hours := if durationHours <= 0 then DefaultHours else durationHours;
    if d.canWrite then Written(d.(file := Entry(token, now + hours * SecondsPerHour)), Pass)
    else Written(d, Fail(WriteFailed))
  }

  /** `GetToken`: never an error. A missing, unreadable or unparsable file
      reads as no token; so does an entry whose expiry lies strictly before
      `now`. Reading changes nothing (the result is a value, not a new disk). */
  function GetToken(f: CacheFile, now: int): (r: Lookup)
    ensures r.valid <==> f.Entry? && now <= f.expiresAt
    ensures r.valid ==> r.token == f.token
    ensures !r.valid ==> r.token == ""
  {
    match f
    case Entry(token, expiresAt) =>
      if now > expiresAt then Lookup("", false) else Lookup(token, true)
    case _ => Lookup("", false)
  }

  /** `ClearToken`: a missing file is already clear; otherwise the file is
      removed, or the removal error is reported and the file stays. */
  function ClearToken(d: Disk): (r: Written)
    ensures r.disk.canWrite == d.canWrite && r.disk.canRemove == d.canRemove
    ensures r.outcome.Pass? <==> d.file.Missing? || d.canRemove
    ensures r.outcome.Pass? ==> r.disk.file.Missing?
    ensures r.outcome.Fail? ==> r.disk == d && r.outcome.error == RemoveFailed
  {
    if d.file.Missing? then Written(d, Pass)
    else if d.canRemove then Written(d.(file := Missing), Pass)
    else Written(d, Fail(RemoveFailed))
  }

  /** A non-positive duration is the same request as 24 hours. */
  lemma SaveDefaultsTo24Hours(d: Disk, token: string, durationHours: int, now: int)
    requires durationHours <= 0
    ensures SaveToken(d, token, durationHours, now) == SaveToken(d, token, DefaultHours, now)
  {
  }

  /** Round trip: after a successful save, every read up to and including
      the stored expiry returns the saved token, and every later read
      returns nothing while the entry stays on disk. */
  lemma SaveThenGet(d: Disk, token: string, durationHours: int, now: int, later: int)
    requires d.canWrite
    ensures var f := SaveToken(d, token, durationHours, now).disk.file;
      (later <= f.expiresAt ==> GetToken(f, later) == Lookup(token, true)) &&
      (later > f.expiresAt ==> GetToken(f, later) == Lookup("", false) && f.Entry?)
  {
  }

  /** After a successful clear nothing can be read. */
  lemma ClearThenGet(d: Disk, now: int)
    requires ClearToken(d).outcome.Pass?
    ensures GetToken(ClearToken(d).disk.file, now) == Lookup("", false)
  {
  }

  /** The last successful save wins, whatever the file held before. */
  lemma LastSaveWins(d: Disk, t1: string, h1: int, now1: int, t2: string, h2: int, now2: int)
    requires d.canWrite
    ensures SaveToken(SaveToken(d, t1, h1, now1).disk, t2, h2, now2) == SaveToken(d, t2, h2, now2)
  {
  }
}

=== FILE: world.dfy ===
/** Everything outside the client's own logic, as one immutable value: the
    clock, the credentials in the environment, the token-cache file and the
    filesystem's permissions, and two scripted servers (the API endpoints and
    the login endpoint) that answer requests in the order they are sent.
    Every request sent is recorded, so the number of sends and logins a call
    makes is the growth of those records. */
module Env {
  import opened Wrappers
  import opened Json
  import opened ApiErrors
  import TokenCache

  /** An API request: its `Authorization` header and its JSON body. */
  datatype Request = Request(authorization: string, payload: JSON)

  /** What the transport hands back for one request: `HTTPClient.Do` failed,
      reading the body failed, or a body arrived. */
  datatype Reply = DoFailure | ReadFailure | Delivered(body: Body)

  datatype World = World(
    now: int,                   // time.Now(), in seconds
    homeOk: bool,               // NewTokenCacheManager succeeds (home directory found, directory created)
    disk: TokenCache.Disk,      // the cache file and the permissions on it
    email: string,              // VICOHOME_EMAIL
    password: string,           // VICOHOME_PASSWORD
    server: seq<Reply>,         // scripted answers of the API endpoints, in order
    sent: seq<Request>,         // requests sent to the API endpoints so far
    loginServer: seq<Reply>,    // scripted answers of the login endpoint, in order
    logins: seq<JSON>)          // login bodies sent so far

  /** A call's result together with the world it leaves behind. */
  datatype Attempt<T> = Attempt(result: Result<T, Error>, world: World)

  /** A reply together with the world after the exchange. */
  datatype Exchange = Exchange(reply: Reply, world: World)

  /** The answer the next endpoint request gets; a script that has run out
      behaves like a transport that fails. */
  function NextReply(w: World): Reply {
    if |w.sent| < |w.server| then w.server[|w.sent|] else DoFailure
  }

  function NextLoginReply(w: World): Reply {
    if |w.logins| < |w.loginServer| then w.loginServer[|w.logins|] else DoFailure
  }

  /** Send one API request. */
  function Send(w: World, req: Request): Exchange {
    Exchange(NextReply(w), w.(sent := w.sent + [req]))
  }

  /** The login request body `{"email", "password", "loginType": 0}`. */
  function LoginBody(email: string, password: string): JSON {
    JObj(map["email" := JStr(email), "password" := JStr(password), "loginType" := JNum(0)])
  }

  /** Send one login request with the environment's credentials. */
  function SendLogin(w: World): Exchange {
    Exchange(NextLoginReply(w), w.(logins := w.logins + [LoginBody(w.email, w.password)]))
  }

  /** Construct a cache manager and clear the token, ignoring any error. */
  function ClearCache(w: World): World {
    if w.homeOk then w.(disk := TokenCache.ClearToken(w.disk).disk) else w
  }
}

=== FILE: wrappers.dfy ===
/** Failure-carrying datatypes shared by every module of the model.
    Go returns `(value, error)` pairs; here a call yields a `Result`, and a call
    that only reports an error yields an `Outcome`. */
module Wrappers {

  /** A value that may be absent: an untyped map lookup, a parse that may fail. */
  datatype Option<+T> = None | Some(value: T)

  /** Either a value or the error that replaced it. */
  datatype Result<+T, +E> = Success(value: T) | Failure(error: E)

  /** The error-only return of an operation such as writing a file. */
  datatype Outcome<+E> = Pass | Fail(error: E)
}
